=== FILE: README.md ===
# Grading helper: mailbox splitting and grade arithmetic

A Dafny model of the two pure parts of a small course-grading helper.

**The mail reader (`mail.py`).**
- `RE_MSG_SPLIT` marks each Thunderbird message with a line `From - <date>`.
- `re.split` on that pattern gives the fragments `[prefix, d1, b1, ..., dk, bk]`.
- `iter_mails` drops the prefix.
- `grab_one_mail` pops the rest two at a time into `(date, content)` records.
- `attempt_decoding` decodes a payload as UTF-8, falling back to Latin-1.

**The grade engine (`marks.py`).**
- `CombinedGrade` is a grade with a `normal` and an `extra` component.
- `from_string` parses `a`, `a+b` and `a+b+`.
- `GRADE_REGEX` finds the `given/total` line of a `#+BEGIN_RESULT` block in a grading file.
- `grades_of_person` and `person_grade_sum` add up a person's grades over the grading rounds that have a file.

Modules, in dependency order:

| module | file | what it models |
|---|---|---|
| `Wrappers` | wrappers.dfy | `Option` and `Result`, the error paths |
| `Text` | text.dfy | `str.split` on one character, `str.strip()`, and the first and last occurrence of a character that the regular-expression scans look for |
| `Grades` | grades.dfy | `CombinedGrade` and its operators |
| `GradeParsing` | grade_parsing.dfy | `from_string`, `GRADE_REGEX` and `extract_grade_from_file` on the file's text |
| `Marks` | marks.dfy | `grades_of_person` and `person_grade_sum` |
| `MailQueue` | mail_queue.dfy | `grab_one_mail` and `iter_mails` over a fragment list |
| `Mbox` | mbox.dfy | `re.split(RE_MSG_SPLIT, text)`, its inverse, and the mailbox-level results |
| `Decoding` | decoding.dfy | `ENCODINGS` and `attempt_decoding` |

Design choices:
- **Grades.** The components are `real`.
- **Number parsing.** Python's `float(text)` is a parameter `num: string -> Option<real>`. The model uses one fact about it: `num("")` fails.
- **Dates.** `datetime.strptime` is a parameter `strptime: (string, string) -> Option<D>`.
- **UTF-8 decoding.** This is a parameter `utf8: seq<byte> -> Option<string>`. Latin-1 is concrete: each byte becomes the character with the same code point.
- **Grading files.** The directory tree becomes a map from (person, round) to file text. An absent key is a missing file.
- **Rounds.** The configured rounds are a sequence.
- **Generic splitter.** The splitter works for any newline-free line marker `m`, and its lemmas hold for every such marker. `Mbox.Split` fixes `m` to `From - `.
- **Generic summing.** The summing works for any file reader and grade parser. `Marks.GradeSum` fixes them to `ExtractGrade` and `FromString`.
- **Date format.** `iter_mails` without options converts dates with the default `DATE_FORMAT` (mail.py:39). The mailbox-level results (`Mbox.MailsOfRaw`, `Mbox.MailDates`, `Mbox.MailboxRoundTrip`) are stated for raw dates, that is, `options={'date_format': ""}`. `MailQueue.DrainParsed` covers a non-empty format.
- **Errors.** Each exception the code can raise on these paths is an error value.
  - `float` failing gives `NotANumber`.
  - The explicit "More than one separator" `ValueError` gives `SurplusPart`.
  - The failing unpack into `normal, extra, rest` gives `TooManyParts`.
  - `None.groupdict()` gives `NoResultBlock`.
  - `popleft` on an empty deque gives `EmptyQueue`.
  - `strptime` failing gives `BadDate`.
  - Every encoding failing gives `EveryEncodingFailed`.

## Model

| member | source | states |
|---|---|---|
| Text.SplitOn | marks.py:14 | `s.split('+')` gives one more part than `s` has separators; no part holds a separator; joining the parts with the separator gives `s` back |
| Text.SplitOnJoinWith | marks.py:14 | splitting undoes joining when no part holds the separator |
| Text.Strip | marks.py:110 | `.strip()` never lengthens its input, and leaves nothing exactly when the input is all whitespace |
| Text.StripIsTrimmed | marks.py:110 | `.strip()` returns a contiguous piece of its input with no whitespace at either end, and only whitespace lies outside that piece |
| Text.StripFrame | marks.py:110 | `.strip()` removes exactly the whitespace around a core that has none at its ends |
| Grades.Add | marks.py:31-35 | the total (`float`) of `a + b` is the sum of the totals |
| Grades.AddInPlace | marks.py:26-29 | after `a += b` the value in `a` is what `a + b` builds |
| Grades.Sub | marks.py:71-78 | the result is a grade exactly when the operand is one; adding the operand back to a grade difference restores `a`; against a number, the result plus the number is `float(a)` |
| Grades.Total | marks.py:92-93 | `float(g)` of a grade with no extra credit is its normal points, and of one with no normal points its extra credit |
| Grades.Eq | marks.py:23-24 | `==` holds exactly for the same record, and exactly when the grade difference `a - b` is `CombinedGrade()` |
| Grades.Le | marks.py:80-84 | `a <= other` holds exactly when the difference `a - other` is nowhere positive (both components against a grade, the scalar against a number); against a grade it implies `float(a) <= float(other)` |
| Grades.Lt | marks.py:86-90 | against a grade, `a < other` is `a <= other` with neither component equal; against a number the difference `a - other` is negative; `<` implies `<=` and never holds between a grade and itself |
| Grades.SubFrom | marks.py:66-69 | `x - a` is the negation of `a - x` |
| Grades.AddCommutative | marks.py:31-35 | `a + b == b + a` |
| Grades.AddAssociative | marks.py:31-35 | `(a + b) + c == a + (b + c)` |
| Grades.AddZero | marks.py:8-10 | `CombinedGrade()` is a two-sided identity of `+` |
| Grades.LeIsPartialOrder | marks.py:80-84 | against grades `<=` is reflexive and transitive, and mutual `<=` holds exactly when the grades are `==` |
| Grades.LtIsStrict | marks.py:86-90 | `<` is irreflexive, asymmetric and transitive |
| Grades.OrderIsPartial | marks.py:80-90 | a grade with more normal points but less extra credit than another (such as `(5,0)` and `(3,1)`) is incomparable with it both ways under `<` and `<=` |
| Grades.LtNeedsBothComponents | marks.py:80-90 | a grade below another in its normal points only (such as `(3,0)` and `(5,0)`) is `<=` it but not `<` it |
| Grades.OrderRefinesTotal | marks.py:80-93 | `a <= b` implies `a <= float(b)`, and `a < b` implies `a < float(b)` |
| Grades.OrderCompatibleWithAdd | marks.py:80-90 | adding the same grade to both sides keeps `<=` and `<` |
| Grades.SubAgreesOnTotals | marks.py:71-93 | the total of a grade difference is the difference of the totals |
| Grades.GradeExamples | marks.py:31-93 | `(5,1) + (2,0) == (7,1)` and `float((5,1)) == 6` |
| GradeParsing.FromString | marks.py:12-21 | three or more `+` fail with the part count; the separator error names the string and needs exactly two `+`; a number error names one of the `+`-separated parts, which the parser rejects; a success takes `normal` and `extra` from the first and second parts, an empty part meaning zero only when there is at most one `+` |
| GradeParsing.FromStringSeparatorLimit | marks.py:14-21 | with three or more `+` parsing fails with the part count; with two it fails unless the string ends with `+`; so a success has at most one `+` or ends with `+` |
| GradeParsing.LastPartEmpty | marks.py:18-19 | the third part of a two-`+` string is empty exactly when the string ends with `+` |
| GradeParsing.FromStringWithoutPlus | marks.py:14-16 | no `+`: an empty string is `(0,0)`; otherwise the string parses as `normal` with `extra` 0, or fails naming it |
| GradeParsing.FromStringOnePlus | marks.py:14-16 | one `+`: `(before, after)`, each empty side 0, the left side's error first |
| GradeParsing.FromStringTwoPlus | marks.py:18-21 | two `+`: a non-empty third part is refused; with an empty third part the first two are parsed with no default to 0 |
| GradeParsing.FromStringEmpty | marks.py:14-16 | `""` parses to `CombinedGrade()` |
| GradeParsing.FromStringOnlyExtra | marks.py:14-16 | `"+3"` parses to `(0, 3)` |
| GradeParsing.FromStringOnlyNormal | marks.py:14-16 | `"5+"` parses to `(5, 0)` |
| GradeParsing.FromStringDoublePlusFails | marks.py:18-21 | `"5++"` fails in `float("")` |
| GradeParsing.SkipSpaces | marks.py:5 | ` *` runs over spaces only and stops at the first non-space or the end |
| GradeParsing.Search | marks.py:108 | `re.search` reports a match position and its groups with no match before it, or none when no position matches |
| GradeParsing.ExtractGrade | marks.py:110 | the only failure is the missing block |
| GradeParsing.ExtractGradeIsLeftmostMatch | marks.py:108-110 | extraction fails exactly when no position matches; otherwise it reads the leftmost match, both groups stripped and trimmed |
| GradeParsing.MatchAt | marks.py:5 | a match begins with `#+BEGIN_RESULT` and a newline, followed by the line `given/total` and its newline; `given` and `total` are single-line; `total` holds no `/`, so the line is cut at its last `/` (the end marker is stated by `GradeParsing.MatchAtEndMarker`; with `GradeParsing.MatchAtLayout`, this layout is exactly when the regex matches) |
| GradeParsing.MatchAtEndMarker | marks.py:5 | after a match's `given/total` line come only spaces and then `#+END_RESULT` |
| GradeParsing.ExtractGradeLeftmost | marks.py:108-110 | a match with none before it is the one extraction reads |
| GradeParsing.ExtractGradeOfBlock | marks.py:104-110 | a file with a `#`-free preamble, then the block with a `given/total` line, then spaces, then `#+END_RESULT`, reads back as the stripped `given` and `total`; `given` keeps every `/` but the last |
| GradeParsing.NoMatchBeforeHash | marks.py:5 | no match begins before the first `#` |
| GradeParsing.MatchAtLayout | marks.py:5 | the regex matches at a begin marker whose next line ends at `e` with its last `/` at `k`, followed by spaces and the end marker; the groups are the two sides of that `/` |
| Marks.Present | marks.py:113-119 | the rounds that have a grading file, in the configured order (an increasing choice of positions) and with the multiplicity they have there; rounds without a file are left out |
| Marks.GradesOfPerson | marks.py:113-119 | on success there is one record per round that has a file, in round order, each holding that file's extraction; it fails exactly when some present file's extraction fails |
| Marks.RoundGrades | marks.py:128-130 | a round without a file contributes nothing; a round with a file contributes the parsed `given` and `total` of its extraction, and succeeds exactly when the extraction and both parses do; a failure carries the error of the first step that fails, in the order extraction, `given`, `total` |
| Marks.SumOverRounds | marks.py:126-131 | the sum succeeds exactly when every round does; a failure carries the error of the first failing round |
| Marks.PersonGradeSum | marks.py:126-131 | the loop that starts from `CombinedGrade()` and applies `+=` per round returns the reference sum, including its first error |
| Marks.SumSkipsMissing | marks.py:116-119 | rounds without a file do not change the sum |
| Marks.SumRecords | marks.py:128-130 | a failure of the sum over records comes from some record's `given` or `total` |
| Marks.SumAgreesWithRecords | marks.py:126-131 | the sum over rounds is the sum over what `grades_of_person` yields; if that fails, the sum fails too |
| Marks.GradeSum | marks.py:104-131 | with `extract_grade_from_file` and `from_string`, the sum equals the sum over the rounds that have a file |
| MailQueue.GrabOneMail | mail.py:42-53 | the first two queue elements are consumed and the rest is left in order; the date is raw under an empty format, or `strptime`'s result; a bad date fails before the content is popped; an empty queue fails, and so does a one-element queue whose date is accepted; two or more elements whose date is accepted always give a mail |
| MailQueue.Drain | mail.py:79-80 | with raw dates the loop never fails; a success makes `n / 2` records whose contents are elements `2i + 1`; a failure is the bad date of some element `2i` |
| MailQueue.IterMails | mail.py:72-80 | an empty list fails; with raw dates `n` fragments give `(n - 1) / 2` records, record `i` from fragments `2i + 1` and `2i + 2`; with a date format the call succeeds exactly when every date fragment after the first fragment parses, and record `i` then holds the parsed date and the content of that pair |
| MailQueue.DrainRaw | mail.py:79-80 | with raw dates the loop never fails and makes `n / 2` records; record `i` pairs elements `2i` and `2i + 1`; a trailing odd element is dropped |
| MailQueue.DrainParsed | mail.py:48-53 | with a date format the loop succeeds exactly when every date element parses; record `i` then holds the parsed date `2i` and the content `2i + 1` |
| MailQueue.IterMailsPairs | mail.py:57-80 | raw-date `iter_mails` on `[prefix, d1, b1, ..., dk, bk]` yields exactly `(di, bi)` in order |
| MailQueue.IterMailsIgnoresPrefix | mail.py:75-77 | the result does not depend on the first fragment |
| MailQueue.IterMailsAtSignExample | tests/test_mail.py:34-45 | the fragments of `"@2eins@2zwei"` under `@([0-9]*)` give the records `("2", "eins")` and `("2", "zwei")` |
| Mbox.DateEnd | mail.py:22 | the date's end lies after the marker and inside the text |
| Mbox.DateEndFacts | mail.py:22 | a boundary's date runs from the marker to the first newline after it |
| Mbox.SplitFrom | mail.py:22 | a split with one group yields an odd number of fragments, text and date alternating; `Mbox.UnsplitSplitFrom`, `Mbox.SplitFromDates` and `Mbox.SplitFromWellFormed` state what the fragments hold |
| Mbox.Split | mail.py:22 | the same for `From - ` |
| Mbox.SplitUnsplit | mail.py:75 | putting each date back on its `From - ` line rebuilds the text, so splitting loses nothing |
| Mbox.UnsplitSplitFrom | mail.py:22 | the same for every marker and every scan position |
| Mbox.SplitWellFormed | mail.py:75 | the dates hold no newline; no text fragment holds a `From - ` line; every text fragment but the last ends a line |
| Mbox.UnsplitSplit | mail.py:75 | every well-formed fragment list is what splitting its join yields, so split and join are inverse |
| Mbox.SplitFromUnsplit | mail.py:22 | the same for every newline-free marker, after any line-ending prefix |
| Mbox.BoundaryOfLine | mail.py:22 | a marker at a line start, then a newline-free date, then a newline, is a boundary whose date ends at that newline |
| Mbox.NoBoundaryInsideLine | mail.py:22 | no boundary starts strictly inside a marker line |
| Mbox.BoundariesFromExact | mail.py:22 | the boundary scan lists exactly the boundaries from its start, in increasing order |
| Mbox.BoundariesAreMarkerLines | mail.py:22 | `Boundaries(text)` is increasing and holds exactly the indices where a `From - ` line starts |
| Mbox.SplitFromDates | mail.py:22 | fragment `2j + 1` of the split is the date of the `j`-th boundary, and there are `2k + 1` fragments for `k` boundaries |
| Mbox.MailDates | mail.py:57-80 | raw-date `iter_mails` on a text makes one record per `From - ` line; record `i`'s date is the rest of the `i`-th such line without its newline |
| Mbox.MailsOf | mail.py:57-80 | `iter_mails(text)` makes one record per `From - ` line with raw dates; with a date format it succeeds exactly when the date of every `From - ` line parses |
| Mbox.DatesParseAtBoundaries | mail.py:48-50 | the date fragments `iter_mails` hands to `strptime` are the dates of the `From - ` lines, one per line |
| Mbox.MailsOfRaw | mail.py:57-80 | raw-date `iter_mails` on a text never fails; record `i` pairs fragments `2i + 1` and `2i + 2`; its date has no newline and its content holds no `From - ` line |
| Mbox.MailboxRoundTrip | mail.py:57-80 | a mailbox written from a prefix and (date, body) pairs whose dates have no newline, and whose bodies have no `From - ` line and end their lines, reads back as exactly those pairs, in order |
| Decoding.Latin1Decode | mail.py:166 | Latin-1 keeps the length, and every character's code point is its byte |
| Decoding.Latin1Encode | mail.py:166 | encoding succeeds exactly when every character is below 256, and then gives those code points as bytes |
| Decoding.Latin1RoundTrip | mail.py:166 | encoding the Latin-1 decoding gives the bytes back |
| Decoding.Latin1EncodeDecode | mail.py:166 | decoding the Latin-1 encoding gives the text back |
| Decoding.DecodeAs | mail.py:179 | `payload.decode('latin-1')` never fails, keeps the length and encodes back to the payload; `decode('utf-8')` is the decoder's result |
| Decoding.FirstDecoding | mail.py:177-181 | the loop yields nothing exactly when every encoding fails; otherwise it yields the decoding of some encoding that all earlier ones failed |
| Decoding.AttemptDecoding | mail.py:167-184 | failure exactly when every encoding fails, with an error naming all encodings; otherwise the first encoding that succeeds decides |
| Decoding.AttemptDecodingFirstWins | mail.py:177-181 | when encoding `k` succeeds and all before it fail, the result is encoding `k`'s decoding |
| Decoding.AttemptDecodingDefault | mail.py:166-184 | with `ENCODINGS` the call never fails: valid UTF-8 gives the UTF-8 text, anything else the byte-for-byte Latin-1 text |

## Left out

- Reading files and mailboxes is left out as I/O: the `open` in `extract_grade_from_file`, `get_file_path` and `fetch_mails`. File contents come in as strings or a map.
- `datetime.strptime` with the locale-dependent `DATE_FORMAT`, and sorting mails by date, are left out because they are library and locale behaviour. `strptime` is a parameter.
- `nice_header`, `iter_attachments`, `save_attachment` and `decode_attachment` are left out: they wrap Python's `email` package and `print`/`exit`.
- `send_mail.py` (SMTP and MIME), `grade.py` (command-line dispatch) and `config.py` (YAML) are left out. The rounds that `marks.py` takes from its config are a parameter.
- `grades_of_everyone` and `grades_overview` are left out: `grades_of_everyone` collects `grades_of_person` for each configured person, and `grades_overview` prints each person's sum. Both only loop over the configured persons.
- `__repr__`, `__format__` and float rounding are left out. The components are exact `real`s.
- GradeParsing.FromString: `float(text)` is an abstract parser. Its whitespace handling and number syntax are not modelled; the one fact used is that it rejects `""`.
- Grades.Eq: NaN and the infinities, which Python's `float()` accepts (`"nan"`, `"inf"`), are not modelled because the components are `real`. A grade holding NaN is not `==` to itself, so this identity holds only for grades without NaN.
- Grades.LeIsPartialOrder: for the same reason, `<=` is reflexive only on grades without NaN.
- Grades.Sub, Grades.Le and Grades.Lt: a non-grade operand is a `real`. The `TypeError` Python raises for other operand types is not modelled.
- Grades.Eq: only grade-to-grade comparison is modelled. Against a number, `__eq__` raises `AttributeError`.
- Marks.GradesOfPerson: only `FileNotFoundError` is skipped, as an absent map key. Other `open` failures (permissions, directories) are not modelled.
- MailQueue.IterMails: the generator's records yielded before a failing date are not modelled. A failure is a failure of the whole list, which is what `list(iter_mails(...))` gives.
- Decoding.AttemptDecoding: the final `raise` (mail.py:183-184) builds a `UnicodeDecodeError` from one argument, which would itself raise `TypeError`. The model returns `EveryEncodingFailed`. With `ENCODINGS` this branch cannot be reached (`Decoding.AttemptDecodingDefault`).
- UTF-8 decoding is a parameter, not a decoder.

=== FILE: decoding.dfy ===
/** `attempt_decoding` (mail.py): decode a payload with the first encoding of
    `ENCODINGS` that accepts it. UTF-8 decoding is a parameter (a partial
    map from bytes to text); Latin-1 is concrete and total: every byte
    becomes the character with the same code point. */
module Decoding {
  import opened Wrappers

  newtype byte = b: int | 0 <= b < 256

  datatype Encoding = Utf8 | Latin1

  /** `ENCODINGS`, in the order they are tried. */
  const Encodings: seq<Encoding> := [Utf8, Latin1]

  /** `payload.decode('utf-8')`, `None` where it raises `UnicodeDecodeError`. */
  type Utf8Decoder = seq<byte> -> Option<string>

  /** Every encoding of the list rejected the payload. */
  datatype DecodeError = EveryEncodingFailed(tried: seq<Encoding>)

  /** `payload.decode('latin-1')`. */
  function Latin1Decode(payload: seq<byte>): (r: string)
    ensures |r| == |payload|
    ensures forall i :: 0 <= i < |payload| ==> r[i] as int == payload[i] as int
  {
    if |payload| == 0 then []
    else [payload[0] as int as char] + Latin1Decode(payload[1..])
  }

  /** `text.encode('latin-1')`, `None` when a character lies beyond the
      byte range. */
  function Latin1Encode(text: string): (r: Option<seq<byte>>)
    ensures r.Some? <==> forall i :: 0 <= i < |text| ==> text[i] as int < 256
    ensures r.Some? ==>
      && |r.value| == |text|
      && forall i :: 0 <= i < |text| ==> r.value[i] as int == text[i] as int
  {
    if |text| == 0 then Some([])
    else if text[0] as int >= 256 then None
    else
      match Latin1Encode(text[1..])
      case None => None
      case Some(rest) => Some([text[0] as int as byte] + rest)
  }

  /** Latin-1 loses nothing: encoding the decoded text gives the bytes
      back. */
  lemma Latin1RoundTrip(payload: seq<byte>)
    ensures Latin1Encode(Latin1Decode(payload)) == Some(payload)
  {
    var text := Latin1Decode(payload);
    assert forall i :: 0 <= i < |text| ==> text[i] as int == payload[i] as int < 256;
    var r := Latin1Encode(text);
    assert r.Some?;
    assert |r.value| == |payload|;
    assert forall i :: 0 <= i < |payload| ==> r.value[i] as int == payload[i] as int;
    assert r.value == payload;
  }

  /** ... and every text of byte-range characters is the decoding of its
      encoding. */
  lemma Latin1EncodeDecode(text: string)
    requires Latin1Encode(text).Some?
    ensures Latin1Decode(Latin1Encode(text).value) == text
  {
    var b := Latin1Encode(text).value;
    var r := Latin1Decode(b);
    assert forall i :: 0 <= i < |text| ==> r[i] == text[i];
  }

  /** `payload.decode(encoding)`, `None` where it raises. Latin-1 never
      raises, and its text encodes back to the payload; UTF-8 is whatever
      the decoder makes of it. */
  function DecodeAs(encoding: Encoding, payload: seq<byte>, utf8: Utf8Decoder): (r: Option<string>)
    ensures encoding == Latin1 ==>
      r.Some? && |r.value| == |payload| && Latin1Encode(r.value) == Some(payload)
    ensures encoding == Utf8 ==> r == utf8(payload)
  {
    match encoding
    case Utf8 => utf8(payload)
    case Latin1 =>
      Latin1RoundTrip(payload);
      Some(Latin1Decode(payload))
  }

  /** The `for` loop: the decoding under the first encoding that accepts
      the payload, `None` when none does. */
  function FirstDecoding(encodings: seq<Encoding>, payload: seq<byte>, utf8: Utf8Decoder)
    : (r: Option<string>)
    ensures r.None? <==> forall i :: 0 <= i < |encodings| ==> DecodeAs(encodings[i], payload, utf8).None?
    ensures r.Some? ==> exists k ::
      (&& 0 <= k < |encodings|
       && DecodeAs(encodings[k], payload, utf8) == r
       && forall i :: 0 <= i < k ==> DecodeAs(encodings[i], payload, utf8).None?)
  {
    if |encodings| == 0 then None
    else
      match DecodeAs(encodings[0], payload, utf8)
      case Some(text) => Some(text)
      case None =>
        var r := FirstDecoding(encodings[1..], payload, utf8);
        assert forall i :: 1 <= i < |encodings| ==> encodings[i] == encodings[1..][i - 1];
        if r.Some? then
          var k :| && 0 <= k < |encodings[1..]|
                   && DecodeAs(encodings[1..][k], payload, utf8) == r
                   && forall i :: 0 <= i < k ==> DecodeAs(encodings[1..][i], payload, utf8).None?;
          assert DecodeAs(encodings[k + 1], payload, utf8) == r;
          r
        else r
  }

  /** `attempt_decoding` over a list of encodings: the first successful
      decoding, or an error naming every encoding tried. */
  function AttemptDecoding(encodings: seq<Encoding>, payload: seq<byte>, utf8: Utf8Decoder)
    : (r: Result<string, DecodeError>)
    ensures r.Failure? <==> forall i :: 0 <= i < |encodings| ==> DecodeAs(encodings[i], payload, utf8).None?
    ensures r.Failure? ==> r.error == EveryEncodingFailed(encodings)
    ensures r.Success? ==> exists k ::
      (&& 0 <= k < |encodings|
       && DecodeAs(encodings[k], payload, utf8) == Some(r.value)
       && forall i :: 0 <= i < k ==> DecodeAs(encodings[i], payload, utf8).None?)
  {
    match FirstDecoding(encodings, payload, utf8)
    case Some(text) => Success(text)
    case None => Failure(EveryEncodingFailed(encodings))
  }

  /** The decoding an earlier encoding produces wins; an encoding after it
      is never consulted. */
  lemma AttemptDecodingFirstWins(encodings: seq<Encoding>, payload: seq<byte>, utf8: Utf8Decoder,
                                 k: nat)
    requires k < |encodings| && DecodeAs(encodings[k], payload, utf8).Some?
    requires forall i :: 0 <= i < k ==> DecodeAs(encodings[i], payload, utf8).None?
    ensures AttemptDecoding(encodings, payload, utf8)
         == Success(DecodeAs(encodings[k], payload, utf8).value)
  {
    var r := FirstDecoding(encodings, payload, utf8);
    var j :| && 0 <= j < |encodings|
             && DecodeAs(encodings[j], payload, utf8) == r
             && forall i :: 0 <= i < j ==> DecodeAs(encodings[i], payload, utf8).None?;
    assert j == k;
  }

  /** With `ENCODINGS` the call never fails (the final `raise` is
      unreachable): valid UTF-8 is decoded as UTF-8, anything else byte for
      byte as Latin-1. */
  lemma AttemptDecodingDefault(payload: seq<byte>, utf8: Utf8Decoder)
    ensures utf8(payload).Some? ==>
      AttemptDecoding(Encodings, payload, utf8) == Success(utf8(payload).value)
    ensures utf8(payload).None? ==>
      AttemptDecoding(Encodings, payload, utf8) == Success(Latin1Decode(payload))
  {
    if utf8(payload).Some? {
      AttemptDecodingFirstWins(Encodings, payload, utf8, 0);
    } else {
      AttemptDecodingFirstWins(Encodings, payload, utf8, 1);
    }
  }
}

=== FILE: grade_parsing.dfy ===
/** Turning the text of a grading file into grades: `CombinedGrade.from_string`
    and the `GRADE_REGEX` search of `extract_grade_from_file` in marks.py. */
module GradeParsing {
  import opened Wrappers
  import opened Text
  import opened Grades

  /** What marks.py raises while reading grades. */
  datatype MarkError =
    | NotANumber(text: string)      // `float(text)` raised ValueError
    | SurplusPart(text: string)     // the explicit "More than one separator" ValueError
    | TooManyParts(parts: nat)      // unpacking `normal, extra, rest` raised ValueError
    | NoResultBlock                 // `re.search` gave None; `.groupdict()` raised AttributeError

  /** Python's `float(text)` on a string is not modelled; it is this
      parameter. The only fact about it the model uses is `EmptyIsNotANumber`. */
  type NumberParser = string -> Option<real>

  predicate EmptyIsNotANumber(num: NumberParser) {
    num("").None?
  }

  function Float(num: NumberParser, text: string): (r: Result<real, MarkError>)
    ensures r.Success? <==> num(text).Some?
    ensures r.Success? ==> r.value == num(text).value
    ensures r.Failure? ==> r.error == NotANumber(text)
  {
    match num(text)
    case Some(v) => Success(v)
    case None => Failure(NotANumber(text))
  }

  /** `x or 0` followed by `float(...)`: an empty part is zero. */
  function FloatOrZero(num: NumberParser, text: string): (r: Result<real, MarkError>)
    ensures text == [] ==> r == Success(0.0)
    ensures text != [] ==> r == Float(num, text)
  {
    if text == [] then Success(0.0) else Float(num, text)
  }

  /** `CombinedGrade.from_string`. Three or more `+` fail with the part
      count; a number error names one of the `+`-separated parts, which the
      parser rejects; a success takes each component from its part, an
      empty first or second part meaning zero only with at most one `+`. */
  function FromString(num: NumberParser, s: string): (r: Result<CombinedGrade, MarkError>)
    ensures multiset(s)['+'] >= 3 ==> r == Failure(TooManyParts(multiset(s)['+'] + 1))
    ensures r.Failure? ==> !r.error.NoResultBlock?
    ensures r.Failure? && r.error.TooManyParts? ==> multiset(s)['+'] >= 3
    ensures r.Failure? && r.error.SurplusPart? ==> r.error.text == s && multiset(s)['+'] == 2
    ensures r.Failure? && r.error.NotANumber? ==>
      r.error.text in SplitOn(s, '+') && num(r.error.text).None?
    ensures r.Success? ==> multiset(s)['+'] <= 2
    ensures r.Success? ==>
      var parts := SplitOn(s, '+');
      && (num(parts[0]) == Some(r.value.normal) || (|parts| <= 2 && parts[0] == [] && r.value.normal == 0.0))
      && (|parts| == 1 ==> r.value.extra == 0.0)
      && (|parts| >= 2 ==>
            num(parts[1]) == Some(r.value.extra) || (|parts| == 2 && parts[1] == [] && r.value.extra == 0.0))
  {
    var parts := SplitOn(s, '+');
    if |parts| <= 2 then
      var normal :- FloatOrZero(num, parts[0]);
      var extra :- if |parts| == 2 then FloatOrZero(num, parts[1]) else Success(0.0);
      Success(CombinedGrade(normal, extra))
    else if |parts| > 3 then
      Failure(TooManyParts(|parts|))
    else if parts[2] != [] then
      Failure(SurplusPart(s))
    else
      var normal :- Float(num, parts[0]);
      var extra :- Float(num, parts[1]);
      Success(CombinedGrade(normal, extra))
  }

  /** Three or more `+` always fail (the unpacking into three names), and
      two `+` fail unless the string ends with the second one. */
  lemma FromStringSeparatorLimit(num: NumberParser, s: string)
    ensures multiset(s)['+'] >= 3 ==> FromString(num, s) == Failure(TooManyParts(multiset(s)['+'] + 1))
    ensures multiset(s)['+'] == 2 && s[|s| - 1] != '+' ==> FromString(num, s) == Failure(SurplusPart(s))
    ensures FromString(num, s).Success? ==> multiset(s)['+'] <= 1 || s[|s| - 1] == '+'
  {
    var parts := SplitOn(s, '+');
    if |parts| == 3 {
      assert parts == [parts[0], parts[1], parts[2]];
      LastPartEmpty(s, parts[0], parts[1], parts[2]);
    }
  }

  /** The third part of a two-`+` string is empty exactly when the string
      ends with `+`. */
  lemma LastPartEmpty(s: string, a: string, b: string, c: string)
    requires JoinWith([a, b, c], '+') == s && '+' !in c
    ensures c == [] <==> s[|s| - 1] == '+'
  {
    assert [a, b, c][1..] == [b, c] && [b, c][1..] == [c];
    assert JoinWith([b, c], '+') == b + ['+'] + c;
    assert s == a + ['+'] + (b + ['+'] + c);
    if c != [] {
      assert s[|s| - 1] == c[|c| - 1];
    }
  }

  /** No `+`: the whole string is `normal`, empty meaning zero. */
  lemma FromStringWithoutPlus(num: NumberParser, a: string)
    requires '+' !in a
    ensures a == [] ==> FromString(num, a) == Success(Zero)
    ensures a != [] && num(a).None? ==> FromString(num, a) == Failure(NotANumber(a))
    ensures a != [] && num(a).Some? ==> FromString(num, a) == Success(CombinedGrade(num(a).value, 0.0))
  {
    SplitOnJoinWith([a], '+');
  }

  /** One `+`: `normal + extra`, each empty side meaning zero, the left side
      parsed first. */
  lemma FromStringOnePlus(num: NumberParser, a: string, b: string)
    requires '+' !in a && '+' !in b
    ensures FromString(num, a + "+" + b) ==
      match (FloatOrZero(num, a), FloatOrZero(num, b))
      case (Failure(e), _) => Failure(e)
      case (Success(_), Failure(e)) => Failure(e)
      case (Success(n), Success(x)) => Success(CombinedGrade(n, x))
  {
    SplitOnJoinWith([a, b], '+');
    assert JoinWith([a, b], '+') == a + "+" + b;
  }

  /** Two `+`: a non-empty third part is refused, and with an empty third
      part neither of the first two defaults to zero. */
  lemma FromStringTwoPlus(num: NumberParser, a: string, b: string, c: string)
    requires '+' !in a && '+' !in b && '+' !in c
    ensures c != [] ==> FromString(num, a + "+" + b + "+" + c) == Failure(SurplusPart(a + "+" + b + "+" + c))
    ensures c == [] ==> (FromString(num, a + "+" + b + "+" + c) ==
      match (Float(num, a), Float(num, b))
      case (Failure(e), _) => Failure(e)
      case (Success(_), Failure(e)) => Failure(e)
      case (Success(n), Success(x)) => Success(CombinedGrade(n, x)))
  {
    var s := a + "+" + b + "+" + c;
    assert [a, b, c][1..] == [b, c] && [b, c][1..] == [c];
    assert JoinWith([b, c], '+') == b + ['+'] + c;
    assert JoinWith([a, b, c], '+') == s;
    SplitOnJoinWith([a, b, c], '+');
    assert SplitOn(s, '+') == [a, b, c];
  }

  /** Worked example: the empty string is `CombinedGrade()`. */
  lemma FromStringEmpty(num: NumberParser)
    ensures FromString(num, "") == Success(Zero)
  {
    FromStringWithoutPlus(num, "");
  }

  /** Worked example: `"+3"` defaults its empty normal part to zero. */
  lemma FromStringOnlyExtra(num: NumberParser)
    requires num("3") == Some(3.0)
    ensures FromString(num, "+3") == Success(CombinedGrade(0.0, 3.0))
  {
    FromStringOnePlus(num, "", "3");
    assert "" + "+" + "3" == "+3";
  }

  /** Worked example: `"5+"` defaults its empty extra part to zero. */
  lemma FromStringOnlyNormal(num: NumberParser)
    requires num("5") == Some(5.0)
    ensures FromString(num, "5+") == Success(CombinedGrade(5.0, 0.0))
  {
    FromStringOnePlus(num, "5", "");
    assert "5" + "+" + "" == "5+";
  }

  /** Worked example: `"5++"` fails, because with two separators the empty
      middle part reaches `float("")`. */
  lemma FromStringDoublePlusFails(num: NumberParser)
    requires EmptyIsNotANumber(num)
    requires num("5") == Some(5.0)
    ensures FromString(num, "5++") == Failure(NotANumber(""))
  {
    FromStringTwoPlus(num, "5", "", "");
    assert "5" + "+" + "" + "+" + "" == "5++";
  }

  // ---- GRADE_REGEX = r" *#\+BEGIN_RESULT\n(?P<given>.*)/(?P<total>.*)\n *#\+END_RESULT" ----

  const BeginMarker: string := "#+BEGIN_RESULT\n"
  const EndMarker: string := "#+END_RESULT"

  /** The two captured groups, before `.strip()`. */
  datatype GradeText = GradeText(given: string, total: string)

  /** Index of the first character at or after `i` that is not a space
      (the greedy ` *`). */
  function SkipSpaces(s: string, i: nat): (j: nat)
    requires i <= |s|
    ensures i <= j <= |s|
    ensures forall k :: i <= k < j ==> s[k] == ' '
    ensures j == |s| || s[j] != ' '
    decreases |s| - i
  {
    if i < |s| && s[i] == ' ' then SkipSpaces(s, i + 1) else i
  }

  /** The regex matched with its `#+BEGIN_RESULT` at index `q` of `s`, and
      these are its groups. The leading ` *` only widens the match to the
      left and captures nothing; `.` never crosses a newline, so the line
      after the begin marker is split at its LAST `/` (greedy `given`). */
  function MatchAt(s: string, q: nat): (r: Option<GradeText>)
    ensures r.Some? ==> HasPrefixAt(s, q, BeginMarker)
    ensures r.Some? ==> '\n' !in r.value.given && '\n' !in r.value.total && '/' !in r.value.total
    ensures r.Some? ==> HasPrefixAt(s, q + |BeginMarker|, r.value.given + "/" + r.value.total + "\n")
  {
    if !HasPrefixAt(s, q, BeginMarker) then None
    else
      var start := q + |BeginMarker|;
      match FindChar(s, '\n', start)
      case None => None
      case Some(e) =>
        var line := s[start..e];
        match FindLast(line, '/')
        case None => None
        case Some(k) =>
          var j := SkipSpaces(s, e + 1);
          if HasPrefixAt(s, j, EndMarker) then
            LineAt(s, start, e, k);
            Some(GradeText(line[..k], line[k + 1..]))
          else None
  }

  /** After the `given/total` line of a match come only spaces and then
      `#+END_RESULT` (the ` *#\+END_RESULT` tail of the regex). */
  lemma MatchAtEndMarker(s: string, q: nat)
    requires MatchAt(s, q).Some?
    ensures var g := MatchAt(s, q).value;
      var e := q + |BeginMarker| + |g.given| + 1 + |g.total|;
      exists m :: e < m && HasPrefixAt(s, m, EndMarker) && forall i :: e < i < m ==> s[i] == ' '
  {
    var start := q + |BeginMarker|;
    var e := FindChar(s, '\n', start).value;
    var k := FindLast(s[start..e], '/').value;
    var j := SkipSpaces(s, e + 1);
    assert e < j && HasPrefixAt(s, j, EndMarker) && forall i :: e < i < j ==> s[i] == ' ';
  }

  /** The line from `start` to the newline at `e`, cut at the `/` at offset
      `k`, is its two sides around that `/`. */
  lemma LineAt(s: string, start: nat, e: nat, k: nat)
    requires start + k < e < |s| && s[e] == '\n' && s[start + k] == '/'
    ensures HasPrefixAt(s, start, s[start..e][..k] + "/" + s[start..e][k + 1..] + "\n")
  {
    var line := s[start..e];
    assert line == line[..k] + "/" + line[k + 1..];
    assert s[start..e + 1] == line + "\n";
  }

  /** `re.search` from index `q`: the first position at or after `q` where
      the block matches. */
  function Search(s: string, q: nat): (r: Option<(nat, GradeText)>)
    ensures r.Some? ==> q <= r.value.0 && MatchAt(s, r.value.0) == Some(r.value.1)
    ensures r.Some? ==> forall p :: q <= p < r.value.0 ==> MatchAt(s, p).None?
    ensures r.None? ==> forall p :: q <= p <= |s| ==> MatchAt(s, p).None?
    decreases |s| + 1 - q
  {
    if q > |s| then None
    else
      match MatchAt(s, q)
      case Some(g) => Some((q, g))
      case None => Search(s, q + 1)
  }

  /** `extract_grade_from_file` on the file's text: the leftmost block's
      `given` and `total`, both stripped; no block is an error.
      `ExtractGradeIsLeftmostMatch` says which block is read. */
  function ExtractGrade(content: string): (r: Result<GradeText, MarkError>)
    ensures r.Failure? ==> r.error == NoResultBlock
  {
    match Search(content, 0)
    case None => Failure(NoResultBlock)
    case Some((q, g)) => Success(GradeText(Strip(g.given), Strip(g.total)))
  }

  /** `re.search` semantics: extraction fails exactly when the block
      matches nowhere, and otherwise reads the match that starts leftmost. */
  lemma ExtractGradeIsLeftmostMatch(content: string)
    ensures ExtractGrade(content).Failure? <==> forall p: nat :: MatchAt(content, p).None?
    ensures ExtractGrade(content).Success? ==>
      Trimmed(ExtractGrade(content).value.given) && Trimmed(ExtractGrade(content).value.total)
    ensures ExtractGrade(content).Success? ==> exists q: nat ::
      (&& MatchAt(content, q).Some?
       && ExtractGrade(content).value
          == GradeText(Strip(MatchAt(content, q).value.given), Strip(MatchAt(content, q).value.total))
       && forall p: nat :: p < q ==> MatchAt(content, p).None?)
  {
    if Search(content, 0).Some? {
      var g := Search(content, 0).value.1;
      StripIsTrimmed(g.given);
      StripIsTrimmed(g.total);
    }
    if Search(content, 0).None? {
      assert forall p: nat :: p > |content| ==> !HasPrefixAt(content, p, BeginMarker);
    }
  }

  /** A match with no match before it is the one `ExtractGrade` reads. */
  lemma ExtractGradeLeftmost(s: string, q: nat)
    requires MatchAt(s, q).Some?
    requires forall p: nat :: p < q ==> MatchAt(s, p).None?
    ensures ExtractGrade(s) == Success(GradeText(Strip(MatchAt(s, q).value.given), Strip(MatchAt(s, q).value.total)))
  {
    var r := Search(s, 0);
    assert q <= |s|;
    assert r.Some?;
    assert r.value.0 == q;
  }

  /** A file laid out as `pre` + begin marker + `given/total` line + spaces +
      end marker + anything: the block is found and read back, the `given`
      side keeping every `/` but the last. */
  lemma ExtractGradeOfBlock(pre: string, given: string, total: string,
                            spaces: string, post: string)
    requires '#' !in pre
    requires '\n' !in given && '\n' !in total && '/' !in total
    requires forall k :: 0 <= k < |spaces| ==> spaces[k] == ' '
    ensures ExtractGrade(pre + BeginMarker + given + "/" + total + "\n" + spaces + EndMarker + post)
         == Success(GradeText(Strip(given), Strip(total)))
  {
    var a1 := pre + BeginMarker;
    var a2 := a1 + given;
    var a4 := a2 + "/" + total;
    var a5 := a4 + "\n";
    var a6 := a5 + spaces;
    var a7 := a6 + EndMarker;
    var s := a7 + post;
    var q, start, k, e, m := |pre|, |a1|, |a2|, |a4|, |a6|;
    // every slice of `s` below lies inside one of the prefixes a1 .. a7
    assert s[..|a7|] == a7 && a7[..|a6|] == a6 && a6[..|a5|] == a5 && a5[..|a4|] == a4;
    assert a4[..|a2|] == a2 && a2[..|a1|] == a1;
    assert s[..q] == pre;
    NoMatchBeforeHash(s, q);
    assert s[q..start] == BeginMarker by {
      assert s[q..start] == a1[q..start];
    }
    assert s[start..k] == given by {
      assert s[start..k] == a2[start..k];
    }
    assert s[k] == '/' by {
      assert s[k] == a4[k];
    }
    assert s[k + 1..e] == total by {
      assert s[k + 1..e] == a4[k + 1..e];
    }
    assert s[start..e] == given + "/" + total by {
      assert s[start..e] == a4[start..e];
    }
    assert s[e] == '\n' by {
      assert s[e] == a5[e];
    }
    forall i | e < i < m
      ensures s[i] == ' '
    {
      assert s[i] == a6[i] == spaces[i - e - 1];
    }
    assert s[m..m + |EndMarker|] == EndMarker by {
      assert s[m..m + |EndMarker|] == a7[m..m + |EndMarker|];
    }
    MatchAtLayout(s, q, k, e, m);
    ExtractGradeLeftmost(s, |pre|);
  }

  /** No block can begin where there is no `#`. */
  lemma NoMatchBeforeHash(s: string, n: nat)
    requires n <= |s| && '#' !in s[..n]
    ensures forall p: nat :: p < n ==> MatchAt(s, p).None?
  {
    forall p: nat | p < n
      ensures MatchAt(s, p).None?
    {
      assert s[p] == s[..n][p];
    }
  }

  /** The regex's shape, position by position: begin marker at `q`, the
      last `/` of the next line at `k`, that line's newline at `e`, and
      only spaces up to an end marker at `m`. */
  lemma MatchAtLayout(s: string, q: nat, k: nat, e: nat, m: nat)
    requires HasPrefixAt(s, q, BeginMarker)
    requires q + |BeginMarker| <= k < e < |s|
    requires s[e] == '\n' && '\n' !in s[q + |BeginMarker|..e]
    requires s[k] == '/' && '/' !in s[k + 1..e]
    requires e < m && HasPrefixAt(s, m, EndMarker)
    requires forall i :: e < i < m ==> s[i] == ' '
    ensures MatchAt(s, q) == Some(GradeText(s[q + |BeginMarker|..k], s[k + 1..e]))
  {
    var start := q + |BeginMarker|;
    var line := s[start..e];
    assert FindChar(s, '\n', start) == Some(e) by {
      FindCharIsFirst(s, '\n', start, e);
    }
    assert FindLast(line, '/') == Some(k - start) && line[..k - start] == s[start..k]
        && line[k - start + 1..] == s[k + 1..e] by {
      LastSlashOfLine(s, start, k, e);
    }
    assert SkipSpaces(s, e + 1) == m by {
      SpacesToEndMarker(s, e, m);
    }
    MatchAtSteps(s, q, e, k - start, m);
  }

  /** The last `/` of `s[start..e]` is the one at `k`. */
  lemma LastSlashOfLine(s: string, start: nat, k: nat, e: nat)
    requires start <= k < e <= |s| && s[k] == '/' && '/' !in s[k + 1..e]
    ensures FindLast(s[start..e], '/') == Some(k - start)
    ensures s[start..e][..k - start] == s[start..k]
    ensures s[start..e][k - start + 1..] == s[k + 1..e]
  {
    var line := s[start..e];
    assert line[k - start] == '/';
    assert line[k - start + 1..] == s[k + 1..e];
    FindLastIsLast(line, '/', k - start);
  }

  /** Only spaces lie between `e` and an end marker at `m`. */
  lemma SpacesToEndMarker(s: string, e: nat, m: nat)
    requires e < m && HasPrefixAt(s, m, EndMarker)
    requires forall i :: e < i < m ==> s[i] == ' '
    ensures SkipSpaces(s, e + 1) == m
  {
    assert s[m] == s[m..m + |EndMarker|][0] == '#';
    var j := SkipSpaces(s, e + 1);
    assert j >= m;
  }

  /** `MatchAt` once its searches have been run. */
  lemma MatchAtSteps(s: string, q: nat, e: nat, k: nat, m: nat)
    requires HasPrefixAt(s, q, BeginMarker) && q + |BeginMarker| <= e
    requires FindChar(s, '\n', q + |BeginMarker|) == Some(e)
    requires FindLast(s[q + |BeginMarker|..e], '/') == Some(k)
    requires e + 1 <= |s| && SkipSpaces(s, e + 1) == m && HasPrefixAt(s, m, EndMarker)
    ensures MatchAt(s, q)
         == Some(GradeText(s[q + |BeginMarker|..e][..k], s[q + |BeginMarker|..e][k + 1..]))
  {
  }
}

=== FILE: grades.dfy ===
/** The `CombinedGrade` class of marks.py: a two-component score (normal
    points plus extra credit) with componentwise arithmetic and a scalar
    fallback when the other operand is a plain number. */
module Grades {

  /** A grade; `CombinedGrade()` with no arguments is `Zero`. */
  datatype CombinedGrade = CombinedGrade(normal: real, extra: real)

  const Zero: CombinedGrade := CombinedGrade(0.0, 0.0)

  /** The right-hand operand of `-`, `<=` and `<`: Python dispatches on
      whether it has `normal`/`extra` attributes, the model on this tag. */
  datatype Operand = Grade(grade: CombinedGrade) | Number(value: real)

  /** `float(g)`: the scalar total `normal + extra`. */
  function Total(g: CombinedGrade): (r: real)
    ensures g.extra == 0.0 ==> r == g.normal
    ensures g.normal == 0.0 ==> r == g.extra
  {
    g.normal + g.extra
  }

  /** `a + b`: componentwise; the total of a sum is the sum of the totals. */
  function Add(a: CombinedGrade, b: CombinedGrade): (r: CombinedGrade)
    ensures Total(r) == Total(a) + Total(b)
  {
    CombinedGrade(a.normal + b.normal, a.extra + b.extra)
  }

  /** `a += b`: both fields of `a` are bumped in place; the value left in
      `a` is the one `a + b` would have built. */
  method AddInPlace(a: CombinedGrade, b: CombinedGrade) returns (a': CombinedGrade)
    ensures a' == Add(a, b)
  {
    a' := a;
    a' := a'.(normal := a'.normal + b.normal);
    a' := a'.(extra := a'.extra + b.extra);
  }

  /** `a == b`: componentwise, which is exactly value identity, and holds
      exactly when the difference is the zero grade. */
  function Eq(a: CombinedGrade, b: CombinedGrade): (r: bool)
    ensures r <==> a == b
    ensures r <==> Sub(a, Grade(b)).grade == Zero
  {
    a.normal == b.normal && a.extra == b.extra
  }

  /** `a - other`: a grade when `other` is a grade, otherwise the number
      `float(a) - other`. */
  function Sub(a: CombinedGrade, other: Operand): (r: Operand)
    ensures r.Grade? <==> other.Grade?
    ensures other.Grade? ==> Add(r.grade, other.grade) == a
    ensures other.Number? ==> r.value + other.value == Total(a)
  {
    match other
    case Grade(b) => Grade(CombinedGrade(a.normal - b.normal, a.extra - b.extra))
    case Number(x) => Number(Total(a) - x)
  }

  /** `x - a` for a plain number `x` (`__rsub__`). */
  function SubFrom(x: real, a: CombinedGrade): (r: real)
    ensures Sub(a, Number(x)) == Number(-r)
  {
    x - Total(a)
  }

  /** `a <= other`: both components against a grade, the total against a
      number; in either case, the difference `a - other` is nowhere positive. */
  function Le(a: CombinedGrade, other: Operand): (r: bool)
    ensures other.Grade? ==>
      (r <==> Sub(a, other).grade.normal <= 0.0 && Sub(a, other).grade.extra <= 0.0)
    ensures other.Number? ==> (r <==> Sub(a, other).value <= 0.0)
    ensures other.Grade? && r ==> Total(a) <= Total(other.grade)
  {
    match other
    case Grade(b) => a.normal <= b.normal && a.extra <= b.extra
    case Number(x) => Total(a) <= x
  }

  /** `a < other`: BOTH components strictly smaller against a grade, the
      total against a number. Against a grade it is `<=` with neither
      component equal; against a number the difference is negative. */
  function Lt(a: CombinedGrade, other: Operand): (r: bool)
    ensures other.Grade? ==>
      (r <==> Le(a, other) && a.normal != other.grade.normal && a.extra != other.grade.extra)
    ensures other.Number? ==> (r <==> Sub(a, other).value < 0.0)
    ensures r ==> Le(a, other) && !(other.Grade? && other.grade == a)
  {
    match other
    case Grade(b) => a.normal < b.normal && a.extra < b.extra
    case Number(x) => Total(a) < x
  }

  // ---- algebra of `+` ----

  lemma AddCommutative(a: CombinedGrade, b: CombinedGrade)
    ensures Add(a, b) == Add(b, a)
  {
  }

  lemma AddAssociative(a: CombinedGrade, b: CombinedGrade, c: CombinedGrade)
    ensures Add(Add(a, b), c) == Add(a, Add(b, c))
  {
  }

  lemma AddZero(a: CombinedGrade)
    ensures Add(a, Zero) == a && Add(Zero, a) == a
  {
  }

  // ---- equality and ordering ----

  /** Against grades, `<=` is a partial order whose antisymmetry is `==`. */
  lemma LeIsPartialOrder(a: CombinedGrade, b: CombinedGrade, c: CombinedGrade)
    ensures Le(a, Grade(a))
    ensures Le(a, Grade(b)) && Le(b, Grade(c)) ==> Le(a, Grade(c))
    ensures Le(a, Grade(b)) && Le(b, Grade(a)) <==> Eq(a, b)
  {
  }

  /** `<` is irreflexive, asymmetric and transitive. */
  lemma LtIsStrict(a: CombinedGrade, b: CombinedGrade, c: CombinedGrade)
    ensures !Lt(a, Grade(a))
    ensures Lt(a, Grade(b)) ==> !Lt(b, Grade(a))
    ensures Lt(a, Grade(b)) && Lt(b, Grade(c)) ==> Lt(a, Grade(c))
  {
  }

  /** A grade with more normal points but less extra credit than another is
      incomparable with it under both `<` and `<=`, e.g. `(5,0)` and `(3,1)`. */
  lemma OrderIsPartial(a: CombinedGrade, b: CombinedGrade)
    requires a.normal > b.normal && a.extra < b.extra
    ensures !Le(a, Grade(b)) && !Le(b, Grade(a))
    ensures !Lt(a, Grade(b)) && !Lt(b, Grade(a))
  {
  }

  /** `<` needs both components strictly smaller: a grade below another in
      its normal points only is `<=` it but not `<` it, e.g. `(3,0)` and
      `(5,0)`. */
  lemma LtNeedsBothComponents(a: CombinedGrade, b: CombinedGrade)
    requires a.normal < b.normal && a.extra == b.extra
    ensures Le(a, Grade(b)) && !Lt(a, Grade(b))
  {
  }

  /** The componentwise order refines the scalar one: dominating a grade
      implies being compared favourably with its total. */
  lemma OrderRefinesTotal(a: CombinedGrade, b: CombinedGrade)
    ensures Le(a, Grade(b)) ==> Le(a, Number(Total(b)))
    ensures Lt(a, Grade(b)) ==> Lt(a, Number(Total(b)))
  {
  }

  /** Adding the same grade on both sides keeps `<=` and `<`. */
  lemma OrderCompatibleWithAdd(a: CombinedGrade, b: CombinedGrade, c: CombinedGrade)
    ensures Le(a, Grade(b)) ==> Le(Add(a, c), Grade(Add(b, c)))
    ensures Lt(a, Grade(b)) ==> Lt(Add(a, c), Grade(Add(b, c)))
  {
  }

  /** Componentwise subtraction agrees with scalar subtraction on totals. */
  lemma SubAgreesOnTotals(a: CombinedGrade, b: CombinedGrade)
    ensures Total(Sub(a, Grade(b)).grade) == Sub(a, Number(Total(b))).value
  {
  }

  /** Worked examples: `(5,1) + (2,0) == (7,1)` and `float((5,1)) == 6`. */
  lemma GradeExamples()
    ensures Add(CombinedGrade(5.0, 1.0), CombinedGrade(2.0, 0.0)) == CombinedGrade(7.0, 1.0)
    ensures Total(CombinedGrade(5.0, 1.0)) == 6.0
  {
  }
}

=== FILE: mail_queue.dfy ===
/** The pairing layer of mail.py: `re.split` with a one-group regex yields
    fragments `[prefix, d1, b1, ..., dk, bk]`; `iter_mails` drops the prefix
    and `grab_one_mail` pops the rest two at a time into (date, content)
    records. The deque is a sequence and popping from the left is slicing.

    Dates are either the raw fragment (an empty `date_format`) or whatever
    `strptime` makes of it; `strptime` itself is a parameter. */
module MailQueue {
  import opened Wrappers

  /** The record's date: the raw text, or a parsed timestamp. */
  datatype MailDate<D> = Raw(text: string) | Parsed(when: D)

  datatype Mail<D> = Mail(date: MailDate<D>, content: string)

  datatype MailError =
    | EmptyQueue          // `popleft` on an empty deque (IndexError)
    | BadDate(text: string) // `strptime` rejects the date (ValueError)

  /** `datetime.strptime(text, format)`, `None` where it raises. */
  type DateParser<D> = (string, string) -> Option<D>

  /** `grab_one_mail`: pop the date, convert it unless the format is empty,
      then pop the content. Errors come in the order Python meets them. */
  function GrabOneMail<D>(queue: seq<string>, format: string, strptime: DateParser<D>)
    : (r: Result<(Mail<D>, seq<string>), MailError>)
    ensures |queue| == 0 ==> r == Failure(EmptyQueue)
    ensures |queue| == 1 && (format == [] || strptime(queue[0], format).Some?) ==> r == Failure(EmptyQueue)
    ensures |queue| >= 2 && (format == [] || strptime(queue[0], format).Some?) ==> r.Success?
    ensures r.Success? ==> |queue| >= 2 && r.value.1 == queue[2..] && r.value.0.content == queue[1]
    ensures format == [] && |queue| >= 2 ==> r.Success? && r.value.0.date == Raw(queue[0])
    ensures format == [] && r.Success? ==> [r.value.0.date.text, r.value.0.content] + r.value.1 == queue
    ensures format != [] && r.Success? ==>
      strptime(queue[0], format).Some? && r.value.0.date == Parsed(strptime(queue[0], format).value)
    ensures format != [] && |queue| >= 1 && strptime(queue[0], format).None? ==> r == Failure(BadDate(queue[0]))
  {
    if |queue| == 0 then Failure(EmptyQueue)
    else
      var dateText := queue[0];
      var date :- if format == [] then Success(Raw(dateText))
                  else match strptime(dateText, format)
                       case None => Failure(BadDate(dateText))
                       case Some(d) => Success(Parsed(d));
      if |queue| < 2 then Failure(EmptyQueue)
      else
        assert [queue[0], queue[1]] + queue[2..] == queue;
        Success((Mail(date, queue[1]), queue[2..]))
  }

  /** The `while len(res) >= 2` loop: records until fewer than two
      fragments remain; the first failing date ends it. */
  function Drain<D>(queue: seq<string>, format: string, strptime: DateParser<D>)
    : (r: Result<seq<Mail<D>>, MailError>)
    ensures format == [] ==> r.Success?
    ensures r.Success? ==> |r.value| == |queue| / 2
    ensures r.Success? ==> forall i :: 0 <= i < |queue| / 2 ==> r.value[i].content == queue[2 * i + 1]
    ensures r.Failure? ==> exists i :: 0 <= i < |queue| / 2 && r.error == BadDate(queue[2 * i])
    decreases |queue|
  {
    if |queue| < 2 then Success([])
    else
      var grabbed := GrabOneMail(queue, format, strptime);
      if grabbed.Failure? then
        assert grabbed.error == BadDate(queue[2 * 0]);
        grabbed.PropagateFailure()
      else
        var (mail, rest) := grabbed.value;
        var mails := Drain(rest, format, strptime);
        if mails.Failure? then
          BadDateShift(queue, mails.error);
          mails.PropagateFailure()
        else
          assert forall i :: 1 <= i < |queue| / 2 ==> queue[2 * i + 1] == rest[2 * (i - 1) + 1];
          Success([mail] + mails.value)
  }

  /** A bad date of the queue after the first pair is a bad date of the queue. */
  lemma BadDateShift(queue: seq<string>, e: MailError)
    requires |queue| >= 2
    requires exists i :: 0 <= i < |queue[2..]| / 2 && e == BadDate(queue[2..][2 * i])
    ensures exists i :: 0 <= i < |queue| / 2 && e == BadDate(queue[2 * i])
  {
    var i :| 0 <= i < |queue[2..]| / 2 && e == BadDate(queue[2..][2 * i]);
    assert queue[2..][2 * i] == queue[2 * (i + 1)];
  }

  /** `list(iter_mails(...))` over the fragments `re.split` returned: the
      first fragment is popped and ignored. */
  function IterMails<D>(fragments: seq<string>, format: string, strptime: DateParser<D>)
    : (r: Result<seq<Mail<D>>, MailError>)
    ensures |fragments| == 0 ==> r == Failure(EmptyQueue)
    ensures format == [] && |fragments| >= 1 ==>
      && r.Success?
      && |r.value| == (|fragments| - 1) / 2
      && forall i :: 0 <= i < (|fragments| - 1) / 2 ==>
           r.value[i] == RawMail(fragments[2 * i + 1], fragments[2 * i + 2])
    ensures format != [] && |fragments| >= 1 ==>
      (r.Success? <==> AllDatesParse(fragments[1..], format, strptime))
    ensures format != [] && r.Success? ==> ParsedRecords(fragments[1..], format, strptime, r.value)
  {
    if |fragments| == 0 then Failure(EmptyQueue)
    else
      var queue := fragments[1..];
      if format == [] then
        DrainRaw(queue, strptime);
        assert forall i :: 0 <= i < |queue| / 2 ==>
          fragments[2 * i + 1] == queue[2 * i] && fragments[2 * i + 2] == queue[2 * i + 1];
        Drain(queue, format, strptime)
      else
        DrainParsed(queue, format, strptime);
        Drain(queue, format, strptime)
  }

  /** The record that fragments `date` and `content` become with raw dates. */
  function RawMail<D>(date: string, content: string): Mail<D> {
    Mail(Raw(date), content)
  }

  /** With an empty format draining never fails, and record `i` pairs the
      fragments at `2i` and `2i + 1`; an odd fragment at the end is dropped. */
  lemma {:induction false} DrainRaw<D>(queue: seq<string>, strptime: DateParser<D>)
    ensures Drain(queue, [], strptime).Success?
    ensures |Drain(queue, [], strptime).value| == |queue| / 2
    ensures forall i :: 0 <= i < |queue| / 2 ==>
      Drain(queue, [], strptime).value[i] == RawMail(queue[2 * i], queue[2 * i + 1])
    decreases |queue|
  {
    if |queue| >= 2 {
      DrainRaw(queue[2..], strptime);
      var tail := Drain(queue[2..], [], strptime).value;
      var r := Drain(queue, [], strptime);
      assert r == Success([RawMail(queue[0], queue[1])] + tail);
      forall i | 1 <= i < |queue| / 2
        ensures r.value[i] == RawMail(queue[2 * i], queue[2 * i + 1])
      {
        assert r.value[i] == tail[i - 1];
        assert queue[2 * i] == queue[2..][2 * (i - 1)];
        assert queue[2 * i + 1] == queue[2..][2 * (i - 1) + 1];
      }
    }
  }

  /** Every date fragment of the queue (positions `0, 2, 4, ...` that have a
      content fragment after them) parses. */
  ghost predicate AllDatesParse<D>(queue: seq<string>, format: string, strptime: DateParser<D>) {
    forall i :: 0 <= i < |queue| / 2 ==> strptime(queue[2 * i], format).Some?
  }

  /** Record `i` of `mails` holds parsed date `2i` and content `2i + 1`. */
  ghost predicate ParsedRecords<D>(queue: seq<string>, format: string, strptime: DateParser<D>,
                             mails: seq<Mail<D>>)
  {
    && |mails| == |queue| / 2
    && forall i :: 0 <= i < |queue| / 2 ==>
         strptime(queue[2 * i], format).Some?
         && mails[i] == Mail(Parsed(strptime(queue[2 * i], format).value), queue[2 * i + 1])
  }

  /** With a non-empty format draining succeeds exactly when every date
      fragment parses, and then record `i` holds the parsed date `2i` and
      the content `2i + 1`. */
  lemma {:induction false} DrainParsed<D>(queue: seq<string>, format: string, strptime: DateParser<D>)
    requires format != []
    ensures Drain(queue, format, strptime).Success? <==> AllDatesParse(queue, format, strptime)
    ensures Drain(queue, format, strptime).Success? ==>
      ParsedRecords(queue, format, strptime, Drain(queue, format, strptime).value)
    decreases |queue|, 1
  {
    if |queue| >= 2 {
      DrainParsedStep(queue, format, strptime);
    }
  }

  lemma {:induction false} DrainParsedStep<D>(queue: seq<string>, format: string, strptime: DateParser<D>)
    requires format != [] && |queue| >= 2
    ensures Drain(queue, format, strptime).Success? <==> AllDatesParse(queue, format, strptime)
    ensures Drain(queue, format, strptime).Success? ==>
      ParsedRecords(queue, format, strptime, Drain(queue, format, strptime).value)
    decreases |queue|, 0
  {
    var tail := Drain(queue[2..], format, strptime);
    DrainParsed(queue[2..], format, strptime);
    DrainOnce(queue, format, strptime);
    AllDatesParseStep(queue, format, strptime);
    if strptime(queue[0], format).Some? && tail.Success? {
      var head := Mail(Parsed(strptime(queue[0], format).value), queue[1]);
      ParsedRecordsCons(queue, format, strptime, head, tail.value);
    }
  }

  /** One pass of the loop with a non-empty format. */
  lemma DrainOnce<D>(queue: seq<string>, format: string, strptime: DateParser<D>)
    requires format != [] && |queue| >= 2
    ensures strptime(queue[0], format).None? ==> Drain(queue, format, strptime).Failure?
    ensures strptime(queue[0], format).Some? ==>
      var tail := Drain(queue[2..], format, strptime);
      && (tail.Failure? ==> Drain(queue, format, strptime).Failure?)
      && (tail.Success? ==>
            Drain(queue, format, strptime)
            == Success([Mail(Parsed(strptime(queue[0], format).value), queue[1])] + tail.value))
  {
  }

  /** The dates of a queue parse when its first one does and those after
      the first pair do. */
  lemma AllDatesParseStep<D>(queue: seq<string>, format: string, strptime: DateParser<D>)
    requires |queue| >= 2
    ensures AllDatesParse(queue, format, strptime)
        <==> strptime(queue[0], format).Some? && AllDatesParse(queue[2..], format, strptime)
  {
    forall i | 1 <= i < |queue| / 2
      ensures queue[2 * i] == queue[2..][2 * (i - 1)]
    {
    }
    if AllDatesParse(queue, format, strptime) {
      assert strptime(queue[2 * 0], format).Some?;
      forall i | 0 <= i < |queue[2..]| / 2
        ensures strptime(queue[2..][2 * i], format).Some?
      {
        assert queue[2..][2 * i] == queue[2 * (i + 1)];
      }
    }
    if strptime(queue[0], format).Some? && AllDatesParse(queue[2..], format, strptime) {
      forall i | 0 <= i < |queue| / 2
        ensures strptime(queue[2 * i], format).Some?
      {
        if i > 0 {
          assert strptime(queue[2..][2 * (i - 1)], format).Some?;
        }
      }
    }
  }

  /** Putting the first pair's record in front of the rest's records. */
  lemma ParsedRecordsCons<D>(queue: seq<string>, format: string, strptime: DateParser<D>,
                             head: Mail<D>, tail: seq<Mail<D>>)
    requires |queue| >= 2 && strptime(queue[0], format).Some?
    requires head == Mail(Parsed(strptime(queue[0], format).value), queue[1])
    requires ParsedRecords(queue[2..], format, strptime, tail)
    ensures ParsedRecords(queue, format, strptime, [head] + tail)
  {
    var r := [head] + tail;
    forall i | 1 <= i < |queue| / 2
      ensures strptime(queue[2 * i], format).Some?
      ensures r[i] == Mail(Parsed(strptime(queue[2 * i], format).value), queue[2 * i + 1])
    {
      assert queue[2 * i] == queue[2..][2 * (i - 1)];
      assert queue[2 * i + 1] == queue[2..][2 * (i - 1) + 1];
      assert r[i] == tail[i - 1];
    }
  }

  /** The list `[d1, b1, ..., dk, bk]` of date/content pairs. */
  function Flatten(pairs: seq<(string, string)>): (r: seq<string>)
    ensures |r| == 2 * |pairs|
    ensures forall i :: 0 <= i < |pairs| ==> r[2 * i] == pairs[i].0 && r[2 * i + 1] == pairs[i].1
  {
    if |pairs| == 0 then []
    else
      var rest := Flatten(pairs[1..]);
      assert forall i :: 1 <= i < |pairs| ==> pairs[i] == pairs[1..][i - 1];
      [pairs[0].0, pairs[0].1] + rest
  }

  /** Raw-date `iter_mails` over `[prefix, d1, b1, ..., dk, bk]` yields the
      pairs `(di, bi)` in order, whatever the prefix is. */
  lemma IterMailsPairs<D>(prefix: string, pairs: seq<(string, string)>, strptime: DateParser<D>)
    ensures IterMails([prefix] + Flatten(pairs), [], strptime).Success?
    ensures |IterMails([prefix] + Flatten(pairs), [], strptime).value| == |pairs|
    ensures forall i :: 0 <= i < |pairs| ==>
      IterMails([prefix] + Flatten(pairs), [], strptime).value[i] == RawMail(pairs[i].0, pairs[i].1)
  {
    var frags := [prefix] + Flatten(pairs);
    forall i | 0 <= i < |pairs|
      ensures frags[2 * i + 1] == pairs[i].0 && frags[2 * i + 2] == pairs[i].1
    {
    }
  }

  /** The first fragment is never looked at. */
  lemma IterMailsIgnoresPrefix<D>(p: string, q: string, rest: seq<string>, format: string,
                                  strptime: DateParser<D>)
    ensures IterMails([p] + rest, format, strptime) == IterMails([q] + rest, format, strptime)
  {
    assert ([p] + rest)[1..] == rest == ([q] + rest)[1..];
  }

  /** The fragments the unit test's `@([0-9]*)` split makes of
      `"@2eins@2zwei"`: two records, `("2", "eins")` and `("2", "zwei")`. */
  lemma IterMailsAtSignExample<D>(strptime: DateParser<D>)
    ensures IterMails(["", "2", "eins", "2", "zwei"], [], strptime)
         == Success([RawMail("2", "eins"), RawMail("2", "zwei")])
  {
    var frags := ["", "2", "eins", "2", "zwei"];
    var r := IterMails(frags, [], strptime).value;
    assert r[0] == RawMail(frags[1], frags[2]) && r[1] == RawMail(frags[3], frags[4]);
    assert |r| == 2 && r[0] == RawMail("2", "eins") && r[1] == RawMail("2", "zwei");
    assert r == [RawMail("2", "eins"), RawMail("2", "zwei")];
  }
}

=== FILE: marks.dfy ===
/** Summing a person's grades over the grading rounds (`grades_of_person`
    and `person_grade_sum` in marks.py). The directory tree of grading files
    becomes a map from (person, round) to the text of that round's
    `grading.org`; a key that is absent is a file that does not exist.

    The summing is stated for any way of reading one file (`read`, which is
    `extract_grade_from_file`) and of parsing one grade (`parse`, which is
    `CombinedGrade.from_string`); `GradeSum` fixes them to the model's
    `ExtractGrade` and `FromString`. */
module Marks {
  import opened Wrappers
  import opened Grades
  import opened GradeParsing

  /** (person, round) -> content of `person/round/grading.org`. */
  type Files = map<(string, string), string>

  type Reader = string -> Result<GradeText, MarkError>
  type Parser = string -> Result<CombinedGrade, MarkError>

  predicate HasFile(files: Files, person: string, round: string) {
    (person, round) in files
  }

  /** `idx` places the elements of `r` in `rounds`, at increasing indices:
      `r` is `rounds` with some elements left out, the rest in order. */
  predicate Embeds(idx: seq<nat>, r: seq<string>, rounds: seq<string>) {
    && |idx| == |r|
    && (forall k :: 0 <= k < |idx| ==> idx[k] < |rounds| && rounds[idx[k]] == r[k])
    && (forall j, k :: 0 <= j < k < |idx| ==> idx[j] < idx[k])
  }

  /** The rounds, in order, for which the person has a grading file. */
  function Present(files: Files, person: string, rounds: seq<string>): (r: seq<string>)
    ensures |r| <= |rounds|
    ensures forall k :: 0 <= k < |r| ==> HasFile(files, person, r[k]) && r[k] in rounds
    ensures forall k :: 0 <= k < |rounds| && HasFile(files, person, rounds[k]) ==> rounds[k] in r
    ensures forall x :: multiset(r)[x] == if HasFile(files, person, x) then multiset(rounds)[x] else 0
    ensures exists idx :: Embeds(idx, r, rounds)
    decreases |rounds|
  {
    if |rounds| == 0 then
      assert Embeds([], [], rounds);
      []
    else
      var tail := Present(files, person, rounds[1..]);
      assert rounds == [rounds[0]] + rounds[1..];
      var keep := HasFile(files, person, rounds[0]);
      var r := if keep then [rounds[0]] + tail else tail;
      EmbedsCons(tail, rounds, keep, r);
      r
  }

  /** Extending the embedding of the tail's selection to the whole list. */
  lemma EmbedsCons(tail: seq<string>, rounds: seq<string>, keep: bool, r: seq<string>)
    requires |rounds| > 0 && exists idx :: Embeds(idx, tail, rounds[1..])
    requires r == if keep then [rounds[0]] + tail else tail
    ensures exists idx :: Embeds(idx, r, rounds)
  {
    var idx :| Embeds(idx, tail, rounds[1..]);
    var shifted := seq(|idx|, k requires 0 <= k < |idx| => idx[k] + 1);
    assert Embeds(shifted, tail, rounds) by {
      forall k | 0 <= k < |shifted|
        ensures shifted[k] < |rounds| && rounds[shifted[k]] == tail[k]
      {
        assert rounds[shifted[k]] == rounds[1..][idx[k]];
      }
    }
    if keep {
      var full := [0] + shifted;
      assert Embeds(full, r, rounds) by {
        forall k | 0 < k < |full|
          ensures full[k] < |rounds| && rounds[full[k]] == r[k]
        {
          assert full[k] == shifted[k - 1] && r[k] == tail[k - 1];
        }
      }
    }
  }

  function RoundNames(records: seq<(string, GradeText)>): seq<string> {
    if |records| == 0 then [] else [records[0].0] + RoundNames(records[1..])
  }

  /** `grades_of_person`: one (round, given/total text) record per round
      that has a grading file, in round order; a round without a file is
      skipped, a file that cannot be read is an error. */
  function GradesOfPerson(read: Reader, files: Files, person: string, rounds: seq<string>)
    : (r: Result<seq<(string, GradeText)>, MarkError>)
    ensures r.Success? ==> RoundNames(r.value) == Present(files, person, rounds)
    ensures r.Success? ==> forall k :: 0 <= k < |r.value| ==>
      HasFile(files, person, r.value[k].0) && read(files[(person, r.value[k].0)]) == Success(r.value[k].1)
    ensures r.Failure? <==> exists k :: 0 <= k < |rounds| && HasFile(files, person, rounds[k])
                                       && read(files[(person, rounds[k])]).Failure?
    decreases |rounds|
  {
    if |rounds| == 0 then Success([])
    else
      var round := rounds[0];
      var tail := GradesOfPerson(read, files, person, rounds[1..]);
      PresentStep(files, person, rounds);
      assert forall k :: 0 < k < |rounds| ==> rounds[k] == rounds[1..][k - 1];
      if !HasFile(files, person, round) then tail
      else
        var text :- read(files[(person, round)]);
        var rest :- tail;
        RecordsCons(read, files, person, round, text, rest);
        Success([(round, text)] + rest)
  }

  /** A record read from a present file, in front of records read back. */
  lemma RecordsCons(read: Reader, files: Files, person: string, round: string, text: GradeText,
                    rest: seq<(string, GradeText)>)
    requires HasFile(files, person, round) && read(files[(person, round)]) == Success(text)
    requires forall k :: 0 <= k < |rest| ==>
      HasFile(files, person, rest[k].0) && read(files[(person, rest[k].0)]) == Success(rest[k].1)
    ensures RoundNames([(round, text)] + rest) == [round] + RoundNames(rest)
    ensures forall k :: 0 <= k < |rest| + 1 ==>
      && HasFile(files, person, ([(round, text)] + rest)[k].0)
      && read(files[(person, ([(round, text)] + rest)[k].0)]) == Success(([(round, text)] + rest)[k].1)
  {
    var r := [(round, text)] + rest;
    assert r[1..] == rest;
    forall k | 0 < k < |r|
      ensures r[k] == rest[k - 1]
    {
    }
  }

  /** One step of `Present`. */
  lemma PresentStep(files: Files, person: string, rounds: seq<string>)
    requires |rounds| > 0
    ensures Present(files, person, rounds)
         == if HasFile(files, person, rounds[0]) then [rounds[0]] + Present(files, person, rounds[1..])
            else Present(files, person, rounds[1..])
  {
  }

  /** One round's contribution: nothing without a file, otherwise the
      parsed given/total pair (first the file, then `given`, then `total`). */
  function RoundGrades(read: Reader, parse: Parser, files: Files, person: string, round: string)
    : (r: Result<Option<(CombinedGrade, CombinedGrade)>, MarkError>)
    ensures !HasFile(files, person, round) ==> r == Success(None)
    ensures HasFile(files, person, round) && r.Success? ==>
      && r.value.Some?
      && read(files[(person, round)]).Success?
      && parse(read(files[(person, round)]).value.given) == Success(r.value.value.0)
      && parse(read(files[(person, round)]).value.total) == Success(r.value.value.1)
    ensures HasFile(files, person, round) ==>
      var t := read(files[(person, round)]);
      if t.Failure? then r == Failure(t.error)
      else if parse(t.value.given).Failure? then r == Failure(parse(t.value.given).error)
      else if parse(t.value.total).Failure? then r == Failure(parse(t.value.total).error)
      else r.Success?
  {
    if !HasFile(files, person, round) then Success(None)
    else
      var text :- read(files[(person, round)]);
      var given :- parse(text.given);
      var total :- parse(text.total);
      Success(Some((given, total)))
  }

  /** Add a partial sum in front of a result, keeping an error as it is. */
  function Shift(r: Result<(CombinedGrade, CombinedGrade), MarkError>, given: CombinedGrade,
                 total: CombinedGrade): Result<(CombinedGrade, CombinedGrade), MarkError>
  {
    match r
    case Success((g, t)) => Success((Add(given, g), Add(total, t)))
    case Failure(e) => Failure(e)
  }

  /** The sum over rounds, as a reference definition: it fails with the
      error of the first round that fails, and otherwise adds up every
      round's pair starting from `CombinedGrade()`. */
  function SumOverRounds(read: Reader, parse: Parser, files: Files, person: string, rounds: seq<string>)
    : (r: Result<(CombinedGrade, CombinedGrade), MarkError>)
    ensures r.Success? <==> forall k :: 0 <= k < |rounds| ==> RoundGrades(read, parse, files, person, rounds[k]).Success?
    ensures r.Failure? ==> exists k :: (
      && 0 <= k < |rounds|
      && RoundGrades(read, parse, files, person, rounds[k]) == Failure(r.error)
      && forall j :: 0 <= j < k ==> RoundGrades(read, parse, files, person, rounds[j]).Success?)
    decreases |rounds|
  {
    if |rounds| == 0 then Success((Zero, Zero))
    else
      var step := RoundGrades(read, parse, files, person, rounds[0]);
      var tail := SumOverRounds(read, parse, files, person, rounds[1..]);
      assert forall k :: 0 < k < |rounds| ==> rounds[k] == rounds[1..][k - 1];
      match step
      case Failure(e) => Failure(e)
      case Success(None) => tail
      case Success(Some((g, t))) => Shift(tail, g, t)
  }

  /** `person_grade_sum`: start from `CombinedGrade()` twice and `+=` each
      round's given and total, in round order. */
  method PersonGradeSum(read: Reader, parse: Parser, files: Files, person: string, rounds: seq<string>)
    returns (r: Result<(CombinedGrade, CombinedGrade), MarkError>)
    ensures r == SumOverRounds(read, parse, files, person, rounds)
  {
    var given, total := Zero, Zero;
    var i := 0;
    while i < |rounds|
      invariant i <= |rounds|
      invariant SumOverRounds(read, parse, files, person, rounds)
             == Shift(SumOverRounds(read, parse, files, person, rounds[i..]), given, total)
    {
      assert rounds[i..][1..] == rounds[i + 1..];
      SumOverRoundsStep(read, parse, files, person, rounds[i..]);
      var step := RoundGrades(read, parse, files, person, rounds[i]);
      if step.Failure? {
        return Failure(step.error);
      }
      if step.value.Some? {
        ShiftShift(SumOverRounds(read, parse, files, person, rounds[i + 1..]),
                   given, total, step.value.value.0, step.value.value.1);
        given := AddInPlace(given, step.value.value.0);
        total := AddInPlace(total, step.value.value.1);
      }
      i := i + 1;
    }
    r := Success((given, total));
  }

  /** The first round of a non-empty list, taken off the sum. */
  lemma SumOverRoundsStep(read: Reader, parse: Parser, files: Files, person: string, rounds: seq<string>)
    requires |rounds| > 0
    ensures var step := RoundGrades(read, parse, files, person, rounds[0]);
      var tail := SumOverRounds(read, parse, files, person, rounds[1..]);
      SumOverRounds(read, parse, files, person, rounds)
      == if step.Failure? then Failure(step.error)
         else if step.value.None? then tail
         else Shift(tail, step.value.value.0, step.value.value.1)
  {
  }

  /** Two partial sums put in front one after the other are their sum put
      in front once. */
  lemma ShiftShift(r: Result<(CombinedGrade, CombinedGrade), MarkError>, g1: CombinedGrade,
                   t1: CombinedGrade, g2: CombinedGrade, t2: CombinedGrade)
    ensures Shift(Shift(r, g2, t2), g1, t1) == Shift(r, Add(g1, g2), Add(t1, t2))
  {
    if r.Success? {
      AddAssociative(g1, g2, r.value.0);
      AddAssociative(t1, t2, r.value.1);
    }
  }

  /** Rounds without a grading file change nothing: summing over all rounds
      is summing over the rounds that have a file. */
  lemma {:induction false} SumSkipsMissing(read: Reader, parse: Parser, files: Files, person: string, rounds: seq<string>)
    ensures SumOverRounds(read, parse, files, person, rounds)
         == SumOverRounds(read, parse, files, person, Present(files, person, rounds))
    decreases |rounds|
  {
    if |rounds| > 0 {
      SumSkipsMissing(read, parse, files, person, rounds[1..]);
      if HasFile(files, person, rounds[0]) {
        var p := Present(files, person, rounds);
        assert p[1..] == Present(files, person, rounds[1..]);
      }
    }
  }

  /** The sum of the parsed `given`/`total` texts of a list of records. */
  function SumRecords(parse: Parser, records: seq<(string, GradeText)>)
    : (r: Result<(CombinedGrade, CombinedGrade), MarkError>)
    ensures r.Failure? ==> exists k :: (
      && 0 <= k < |records|
      && (parse(records[k].1.given).Failure? || parse(records[k].1.total).Failure?))
    decreases |records|
  {
    if |records| == 0 then Success((Zero, Zero))
    else
      var tail := SumRecords(parse, records[1..]);
      assert forall k :: 0 < k < |records| ==> records[k] == records[1..][k - 1];
      match parse(records[0].1.given)
      case Failure(e) => Failure(e)
      case Success(g) =>
        match parse(records[0].1.total)
        case Failure(e) => Failure(e)
        case Success(t) => Shift(tail, g, t)
  }

  /** `person_grade_sum` is the sum over what `grades_of_person` yields:
      when every present file can be read the two agree exactly; when one
      cannot, the sum fails too. */
  lemma {:induction false} SumAgreesWithRecords(read: Reader, parse: Parser, files: Files, person: string,
                                                rounds: seq<string>)
    ensures GradesOfPerson(read, files, person, rounds).Failure? ==>
      SumOverRounds(read, parse, files, person, rounds).Failure?
    ensures GradesOfPerson(read, files, person, rounds).Success? ==>
      SumOverRounds(read, parse, files, person, rounds) == SumRecords(parse, GradesOfPerson(read, files, person, rounds).value)
    decreases |rounds|
  {
    if |rounds| > 0 {
      var round := rounds[0];
      SumAgreesWithRecords(read, parse, files, person, rounds[1..]);
      var recs := GradesOfPerson(read, files, person, rounds);
      var tailRecs := GradesOfPerson(read, files, person, rounds[1..]);
      var sum := SumOverRounds(read, parse, files, person, rounds);
      var tailSum := SumOverRounds(read, parse, files, person, rounds[1..]);
      var step := RoundGrades(read, parse, files, person, round);
      if !HasFile(files, person, round) {
        assert step == Success(None);
        assert recs == tailRecs && sum == tailSum;
      } else {
        var text := read(files[(person, round)]);
        if text.Failure? {
          assert recs.Failure? && step.Failure? && sum.Failure?;
        } else if tailRecs.Failure? {
          assert recs.Failure?;
          assert tailSum.Failure?;
          assert sum.Failure?;
        } else {
          AgreeAtReadableFile(read, parse, files, person, rounds);
        }
      }
    }
  }

  /** The step of `SumAgreesWithRecords` for a first round whose file can
      be read, when the later rounds already agree. */
  lemma AgreeAtReadableFile(read: Reader, parse: Parser, files: Files, person: string, rounds: seq<string>)
    requires |rounds| > 0 && HasFile(files, person, rounds[0])
    requires read(files[(person, rounds[0])]).Success?
    requires GradesOfPerson(read, files, person, rounds[1..]).Success?
    requires SumOverRounds(read, parse, files, person, rounds[1..])
          == SumRecords(parse, GradesOfPerson(read, files, person, rounds[1..]).value)
    ensures GradesOfPerson(read, files, person, rounds).Success?
    ensures SumOverRounds(read, parse, files, person, rounds)
         == SumRecords(parse, GradesOfPerson(read, files, person, rounds).value)
  {
    var text := read(files[(person, rounds[0])]).value;
    var rest := GradesOfPerson(read, files, person, rounds[1..]).value;
    GradesOfPersonAtFile(read, files, person, rounds);
    SumRecordsStep(parse, (rounds[0], text), rest);
    SumOverRoundsStep(read, parse, files, person, rounds);
  }

  lemma GradesOfPersonAtFile(read: Reader, files: Files, person: string, rounds: seq<string>)
    requires |rounds| > 0 && HasFile(files, person, rounds[0])
    requires read(files[(person, rounds[0])]).Success?
    requires GradesOfPerson(read, files, person, rounds[1..]).Success?
    ensures GradesOfPerson(read, files, person, rounds)
         == Success([(rounds[0], read(files[(person, rounds[0])]).value)]
                    + GradesOfPerson(read, files, person, rounds[1..]).value)
  {
  }

  lemma SumRecordsStep(parse: Parser, head: (string, GradeText), rest: seq<(string, GradeText)>)
    ensures var given := parse(head.1.given);
      var total := parse(head.1.total);
      SumRecords(parse, [head] + rest)
      == if given.Failure? then Failure(given.error)
         else if total.Failure? then Failure(total.error)
         else Shift(SumRecords(parse, rest), given.value, total.value)
  {
    assert ([head] + rest)[1..] == rest;
  }

  /** marks.py's own instantiation: files are read with `ExtractGrade`
      (`extract_grade_from_file`) and grades parsed with `FromString`. */
  function GradeSum(files: Files, num: NumberParser, person: string, rounds: seq<string>)
    : (r: Result<(CombinedGrade, CombinedGrade), MarkError>)
    ensures r == SumOverRounds(ExtractGrade, s => FromString(num, s), files, person, Present(files, person, rounds))
  {
    SumSkipsMissing(ExtractGrade, s => FromString(num, s), files, person, rounds);
    SumOverRounds(ExtractGrade, s => FromString(num, s), files, person, rounds)
  }
}

=== FILE: mbox.dfy ===
/** `RE_MSG_SPLIT` and `re.split` on a Thunderbird mailbox (mail.py).

    The pattern `^From - (.*)\n` under MULTILINE matches at a line start
    (the start of the text or just after a newline) where `From - ` is
    followed by a date that runs to the next newline; `.` does not match a
    newline, so the date is the rest of that line. `re.split` returns the
    text between matches with each match's date in between:
    `[prefix, d1, b1, ..., dk, bk]`.

    The splitter is written for a line marker `m` (`From - ` in mail.py)
    and its properties are proved for every marker without a newline;
    `Split` fixes the marker. */
module Mbox {
  import opened Wrappers
  import opened Text
  import opened MailQueue

  const FromPrefix: string := "From - "

  /** Index `i` starts a line of `s`. */
  predicate LineStart(s: string, i: nat) {
    i == 0 || (i <= |s| && s[i - 1] == '\n')
  }

  /** The pattern `^<m>(.*)\n` matches at index `i` of `s`: a line starts
      there with the marker, and a newline follows somewhere after it. */
  predicate BoundaryAt(m: string, s: string, i: nat) {
    LineStart(s, i) && HasPrefixAt(s, i, m) && '\n' in s[i + |m|..]
  }

  /** The newline that ends the date of the boundary line at `i`
      (`DateEndFacts` says which one it is). */
  function DateEnd(m: string, s: string, i: nat): (e: nat)
    requires BoundaryAt(m, s, i)
    ensures i + |m| <= e < |s|
  {
    FindChar(s, '\n', i + |m|).value
  }

  /** The date of a boundary line runs from the marker to the first newline
      after it. */
  lemma DateEndFacts(m: string, s: string, i: nat)
    requires BoundaryAt(m, s, i)
    ensures var e := DateEnd(m, s, i);
      s[e] == '\n' && '\n' !in s[i + |m|..e] && s[i..i + |m|] == m
  {
  }

  /** `re.split` from index `i`, the current fragment having begun at
      `start`: scan for the next match, emit the fragment and the date,
      continue after the match's newline. */
  function SplitFrom(m: string, s: string, start: nat, i: nat): (r: seq<string>)
    requires start <= i <= |s|
    ensures |r| % 2 == 1
    decreases |s| - i
  {
    if i == |s| then [s[start..]]
    else if BoundaryAt(m, s, i) then
      var e := DateEnd(m, s, i);
      [s[start..i], s[i + |m|..e]] + SplitFrom(m, s, e + 1, e + 1)
    else SplitFrom(m, s, start, i + 1)
  }

  /** `re.split(RE_MSG_SPLIT, s)`. */
  function Split(s: string): (r: seq<string>)
    ensures |r| % 2 == 1
  {
    SplitFrom(FromPrefix, s, 0, 0)
  }

  /** One step of `SplitFrom` at a boundary. */
  lemma SplitFromAtBoundary(m: string, s: string, start: nat, i: nat)
    requires start <= i < |s| && BoundaryAt(m, s, i)
    ensures SplitFrom(m, s, start, i)
         == [s[start..i], s[i + |m|..DateEnd(m, s, i)]] + SplitFrom(m, s, DateEnd(m, s, i) + 1, DateEnd(m, s, i) + 1)
  {
  }

  /** Scanning from a fragment start straight to a boundary. */
  lemma SplitToBoundary(m: string, s: string, start: nat, i: nat, next: nat, f: string, d: string)
    requires start <= i < |s| && BoundaryAt(m, s, i)
    requires SplitFrom(m, s, start, start) == SplitFrom(m, s, start, i)
    requires next == DateEnd(m, s, i) + 1
    requires s[start..i] == f && s[i + |m|..next - 1] == d
    ensures SplitFrom(m, s, start, start) == [f, d] + SplitFrom(m, s, next, next)
  {
    SplitFromAtBoundary(m, s, start, i);
  }

  /** The text that fragments `[prefix, d1, b1, ..., dk, bk]` come from:
      each date put back on its marker line. */
  function Unsplit(m: string, frags: seq<string>): string
    requires |frags| % 2 == 1
    decreases |frags|
  {
    if |frags| == 1 then frags[0]
    else frags[0] + m + frags[1] + "\n" + Unsplit(m, frags[2..])
  }

  /** `f` read on its own holds no boundary. */
  predicate Clean(m: string, f: string) {
    forall j :: 0 <= j <= |f| ==> !BoundaryAt(m, f, j)
  }

  /** `f` is empty or ends a line, so whatever follows starts a line. */
  predicate Terminated(f: string) {
    f == [] || f[|f| - 1] == '\n'
  }

  /** The fragment lists `re.split` produces: an odd number of fragments,
      dates without newlines, text fragments without a boundary, and every
      text fragment but the last ending a line. */
  predicate WellFormed(m: string, frags: seq<string>)
    decreases |frags|
  {
    && |frags| % 2 == 1
    && Clean(m, frags[0])
    && (|frags| > 1 ==>
         && Terminated(frags[0])
         && '\n' !in frags[1]
         && WellFormed(m, frags[2..]))
  }

  /** The text from `start` is the piece before the marker line at `i`,
      the marker, the date up to the newline at `e`, and the rest. */
  lemma RejoinLine(m: string, s: string, start: nat, i: nat, e: nat)
    requires start <= i && i + |m| <= e < |s|
    requires s[i..i + |m|] == m && s[e] == '\n'
    ensures s[start..] == s[start..i] + m + s[i + |m|..e] + "\n" + s[e + 1..]
  {
    var j := i + |m|;
    var a, b, c := s[start..i], s[j..e], s[e + 1..];
    calc {
      s[start..];
    == { SliceSplit(s, start, i); }
      a + s[i..];
    == { SliceSplit(s, i, j); }
      a + (m + s[j..]);
    == { SliceSplit(s, j, e); }
      a + (m + (b + s[e..]));
    == { SliceSplit(s, e, e + 1); }
      a + (m + (b + ("\n" + c)));
    ==
      a + m + b + "\n" + c;
    }
  }

  /** A suffix is the slice up to `j` followed by the suffix from `j`. */
  lemma SliceSplit(s: string, i: nat, j: nat)
    requires i <= j <= |s|
    ensures s[i..] == s[i..j] + s[j..]
  {
  }

  /** Putting the marker line at `i`, with its date ending at `e`, back
      between the fragment before it and the join of what follows its
      newline restores the text. */
  lemma JoinAtBoundary(m: string, s: string, start: nat, i: nat, e: nat, rest: seq<string>)
    requires start <= i && i + |m| <= e < |s|
    requires s[i..i + |m|] == m && s[e] == '\n'
    requires |rest| % 2 == 1 && Unsplit(m, rest) == s[e + 1..]
    ensures Unsplit(m, [s[start..i], s[i + |m|..e]] + rest) == s[start..]
  {
    var r := [s[start..i], s[i + |m|..e]] + rest;
    assert r[2..] == rest;
    RejoinLine(m, s, start, i, e);
  }

  lemma UnsplitAtBoundary(m: string, s: string, start: nat, i: nat)
    requires start <= i < |s| && BoundaryAt(m, s, i)
    requires var e := DateEnd(m, s, i);
      Unsplit(m, SplitFrom(m, s, e + 1, e + 1)) == s[e + 1..]
    ensures Unsplit(m, SplitFrom(m, s, start, i)) == s[start..]
  {
    var e := DateEnd(m, s, i);
    DateEndFacts(m, s, i);
    SplitFromAtBoundary(m, s, start, i);
    JoinAtBoundary(m, s, start, i, e, SplitFrom(m, s, e + 1, e + 1));
  }

  /** Joining the fragments gives the text back: nothing is lost. */
  lemma {:induction false} UnsplitSplitFrom(m: string, s: string, start: nat, i: nat)
    requires start <= i <= |s|
    ensures Unsplit(m, SplitFrom(m, s, start, i)) == s[start..]
    decreases |s| - i
  {
    if i < |s| {
      if BoundaryAt(m, s, i) {
        var e := DateEnd(m, s, i);
        UnsplitSplitFrom(m, s, e + 1, e + 1);
        UnsplitAtBoundary(m, s, start, i);
      } else {
        UnsplitSplitFrom(m, s, start, i + 1);
      }
    }
  }

  /** `Unsplit` undoes `Split` on every text. */
  lemma SplitUnsplit(s: string)
    ensures Unsplit(FromPrefix, Split(s)) == s
  {
    UnsplitSplitFrom(FromPrefix, s, 0, 0);
    assert s[0..] == s;
  }

  /** A boundary of a piece of `s` that begins at a line start is a
      boundary of `s`. */
  lemma BoundaryOfPiece(m: string, s: string, start: nat, stop: nat, j: nat)
    requires start <= stop <= |s| && LineStart(s, start)
    requires BoundaryAt(m, s[start..stop], j)
    ensures start + j < stop && BoundaryAt(m, s, start + j)
  {
    var t := s[start..stop];
    assert HasPrefixAt(t, j, m);
    forall k | 0 <= k < |m|
      ensures s[start + j..start + j + |m|][k] == m[k]
    {
      assert m[k] == t[j..j + |m|][k] == t[j + k] == s[start + j + k];
    }
    assert s[start + j..start + j + |m|] == m;
    var y :| 0 <= y < |t[j + |m|..]| && t[j + |m|..][y] == '\n';
    assert s[start + j + |m| + y] == '\n';
    assert s[start + j + |m|..][y] == '\n';
  }

  /** A piece of `s` from a line start that holds no boundary of `s` is
      clean. */
  lemma CleanPiece(m: string, s: string, start: nat, stop: nat)
    requires start <= stop <= |s| && LineStart(s, start)
    requires forall k :: start <= k < stop ==> !BoundaryAt(m, s, k)
    ensures Clean(m, s[start..stop])
  {
    forall j | 0 <= j <= stop - start
      ensures !BoundaryAt(m, s[start..stop], j)
    {
      if BoundaryAt(m, s[start..stop], j) {
        BoundaryOfPiece(m, s, start, stop, j);
      }
    }
  }

  /** A clean fragment that ends a line and a newline-free date in front
      of a well-formed list keep it well-formed. */
  lemma WellFormedCons(m: string, f: string, d: string, rest: seq<string>)
    requires Clean(m, f) && Terminated(f) && '\n' !in d && WellFormed(m, rest)
    ensures WellFormed(m, [f, d] + rest)
  {
    assert ([f, d] + rest)[2..] == rest;
  }

  /** The fragment before the first boundary is clean and ends a line, and
      the date holds no newline. */
  lemma WellFormedAtBoundary(m: string, s: string, start: nat, i: nat, e: nat, rest: seq<string>)
    requires start <= i < |s| && LineStart(s, start) && BoundaryAt(m, s, i)
    requires e == DateEnd(m, s, i)
    requires forall k :: start <= k < i ==> !BoundaryAt(m, s, k)
    requires WellFormed(m, rest)
    ensures WellFormed(m, [s[start..i], s[i + |m|..e]] + rest)
  {
    var f := s[start..i];
    assert Clean(m, f) by {
      CleanPiece(m, s, start, i);
    }
    assert Terminated(f) by {
      if start < i {
        assert f[i - start - 1] == s[i - 1];
      }
    }
    assert '\n' !in s[i + |m|..e] by {
      DateEndFacts(m, s, i);
    }
    WellFormedCons(m, f, s[i + |m|..e], rest);
  }

  /** `re.split` leaves no boundary inside a text fragment: the fragments
      are well-formed. */
  lemma {:induction false} SplitFromWellFormed(m: string, s: string, start: nat, i: nat)
    requires start <= i <= |s| && LineStart(s, start)
    requires forall k :: start <= k < i ==> !BoundaryAt(m, s, k)
    ensures WellFormed(m, SplitFrom(m, s, start, i))
    decreases |s| - i, 1
  {
    if i == |s| {
      CleanPiece(m, s, start, |s|);
      assert s[start..|s|] == s[start..];
    } else if BoundaryAt(m, s, i) {
      WellFormedStepAtBoundary(m, s, start, i);
    } else {
      WellFormedPastNonBoundary(m, s, start, i);
    }
  }

  lemma {:induction false} WellFormedStepAtBoundary(m: string, s: string, start: nat, i: nat)
    requires start <= i < |s| && LineStart(s, start) && BoundaryAt(m, s, i)
    requires forall k :: start <= k < i ==> !BoundaryAt(m, s, k)
    ensures WellFormed(m, SplitFrom(m, s, start, i))
    decreases |s| - i, 0
  {
    var e := DateEnd(m, s, i);
    var rest := SplitFrom(m, s, e + 1, e + 1);
    SplitFromWellFormed(m, s, e + 1, e + 1);
    SplitFromAtBoundary(m, s, start, i);
    WellFormedAtBoundary(m, s, start, i, e, rest);
  }

  lemma {:induction false} WellFormedPastNonBoundary(m: string, s: string, start: nat, i: nat)
    requires start <= i < |s| && LineStart(s, start) && !BoundaryAt(m, s, i)
    requires forall k :: start <= k < i ==> !BoundaryAt(m, s, k)
    ensures WellFormed(m, SplitFrom(m, s, start, i))
    decreases |s| - i, 0
  {
    SplitFromWellFormed(m, s, start, i + 1);
    assert SplitFrom(m, s, start, i) == SplitFrom(m, s, start, i + 1);
  }

  /** `Split` finds every `From - ` line: what it returns is well-formed. */
  lemma SplitWellFormed(s: string)
    ensures WellFormed(FromPrefix, Split(s))
  {
    SplitFromWellFormed(FromPrefix, s, 0, 0);
  }

  /** A boundary of `s` inside a piece that begins at a line start is a
      boundary of the piece, when the piece runs to the end of `s` or ends a
      line: what follows a line-ending piece cannot complete a boundary,
      the piece's own last newline comes first. */
  lemma BoundaryWithinPiece(m: string, s: string, a: nat, b: nat, j: nat)
    requires '\n' !in m
    requires a + j < b <= |s| && LineStart(s, a)
    requires b == |s| || Terminated(s[a..b])
    requires BoundaryAt(m, s, a + j)
    ensures BoundaryAt(m, s[a..b], j)
  {
    var t := s[a..b];
    if j > 0 {
      assert t[j - 1] == s[a + j - 1];
    }
    if b < |s| {
      assert s[b - 1] == t[|t| - 1] == '\n';
      forall k | 0 <= k < |m|
        ensures t[j..j + |m|][k] == m[k]
      {
        assert m[k] == s[a + j..a + j + |m|][k] == s[a + j + k] == t[j + k];
      }
      assert t[j..j + |m|] == m;
      assert t[j + |m|..][|t| - 1 - j - |m|] == '\n';
    } else {
      assert t == s[a..];
      assert t[j..j + |m|] == s[a + j..a + j + |m|];
      assert t[j + |m|..] == s[a + j + |m|..];
    }
  }

  /** A clean piece from a line start that ends a line, or the text, holds
      no boundary: scanning skips it. */
  lemma SkipFragment(m: string, s: string, a: nat, b: nat, f: string)
    requires '\n' !in m
    requires a <= b <= |s| && LineStart(s, a) && s[a..b] == f && Clean(m, f)
    requires b == |s| || Terminated(f)
    ensures SplitFrom(m, s, a, a) == SplitFrom(m, s, a, b)
  {
    forall n | a <= n < b
      ensures !BoundaryAt(m, s, n)
    {
      if BoundaryAt(m, s, n) {
        BoundaryWithinPiece(m, s, a, b, n - a);
      }
    }
    SkipNonBoundaries(m, s, a, a, b);
  }

  /** Scanning past indices that hold no boundary changes nothing. */
  lemma {:induction false} SkipNonBoundaries(m: string, s: string, start: nat, i: nat, k: nat)
    requires start <= i <= k <= |s|
    requires forall n :: i <= n < k ==> !BoundaryAt(m, s, n)
    ensures SplitFrom(m, s, start, i) == SplitFrom(m, s, start, k)
    decreases k - i
  {
    if i < k {
      SkipNonBoundaries(m, s, start, i + 1, k);
    }
  }

  /** A marker at a line start followed by a newline-free date and a
      newline is a boundary, and its date ends at that newline. */
  lemma BoundaryOfLine(m: string, s: string, i: nat, d: string)
    requires LineStart(s, i) && '\n' !in d
    requires i + |m| + |d| < |s| && s[i + |m| + |d|] == '\n'
    requires s[i..i + |m|] == m && s[i + |m|..i + |m| + |d|] == d
    ensures BoundaryAt(m, s, i) && DateEnd(m, s, i) == i + |m| + |d|
  {
    assert s[i + |m|..][|d|] == '\n';
    DateEndFacts(m, s, i);
  }

  /** Where the pieces of `p + f + m + d + "\n" + u` sit. */
  lemma JoinLayout(m: string, p: string, f: string, d: string, u: string)
    requires Terminated(p) && Terminated(f)
    ensures var s := p + f + m + d + "\n" + u;
      var i := |p| + |f|;
      && s[|p|..i] == f
      && LineStart(s, |p|) && LineStart(s, i)
      && s[i..i + |m|] == m
      && s[i + |m|..i + |m| + |d|] == d
      && s[i + |m| + |d|] == '\n'
  {
    var s := p + f + m + d + "\n" + u;
    var i := |p| + |f|;
    if |p| > 0 {
      assert s[|p| - 1] == p[|p| - 1];
    }
    if i > 0 {
      if f == [] { assert s[i - 1] == p[|p| - 1]; } else { assert s[i - 1] == f[|f| - 1]; }
    }
  }

  /** The last fragment, clean and after a line-ending prefix, is taken
      whole. */
  lemma SkipLastFragment(m: string, p: string, f: string)
    requires '\n' !in m
    requires Terminated(p) && Clean(m, f)
    ensures SplitFrom(m, p + f, |p|, |p|) == [f]
  {
    var s := p + f;
    assert s[|p|..|s|] == f;
    if |p| > 0 {
      assert s[|p| - 1] == p[|p| - 1];
    }
    SkipFragment(m, s, |p|, |s|, f);
    assert s[|p|..] == f;
  }

  /** From a line start, past a clean line-ending piece and the marker
      line for date `d`, splitting yields the piece, `d`, and carries on
      after the newline. */
  lemma SplitPastPiece(m: string, s: string, a: nat, i: nat, f: string, d: string)
    requires '\n' !in m && '\n' !in d
    requires a <= i && i + |m| + |d| < |s|
    requires LineStart(s, a) && LineStart(s, i)
    requires s[a..i] == f && Clean(m, f) && Terminated(f)
    requires s[i..i + |m|] == m && s[i + |m|..i + |m| + |d|] == d && s[i + |m| + |d|] == '\n'
    ensures SplitFrom(m, s, a, a) == [f, d] + SplitFrom(m, s, i + |m| + |d| + 1, i + |m| + |d| + 1)
  {
    SkipFragment(m, s, a, i, f);
    BoundaryOfLine(m, s, i, d);
    SplitToBoundary(m, s, a, i, i + |m| + |d| + 1, f, d);
  }

  /** Past a clean line-ending fragment `f` and the marker line for date
      `d`, splitting yields `f`, `d` and carries on after the newline. */
  lemma SplitPastFragment(m: string, p: string, f: string, d: string, u: string)
    requires '\n' !in m && '\n' !in d
    requires Terminated(p) && Terminated(f) && Clean(m, f)
    ensures var p2 := p + f + m + d + "\n";
      SplitFrom(m, p2 + u, |p|, |p|) == [f, d] + SplitFrom(m, p2 + u, |p2|, |p2|)
  {
    var s := p + f + m + d + "\n" + u;
    JoinLayout(m, p, f, d, u);
    SplitPastPiece(m, s, |p|, |p| + |f|, f, d);
  }

  /** The join of at least three fragments after a prefix, taken apart. */
  lemma PrefixUnsplit(m: string, p: string, frags: seq<string>)
    requires |frags| % 2 == 1 && |frags| > 1
    ensures p + Unsplit(m, frags) == p + frags[0] + m + frags[1] + "\n" + Unsplit(m, frags[2..])
  {
  }

  /** Splitting a joined well-formed fragment list, after any line-ending
      prefix, gives the fragments back. */
  lemma {:induction false} SplitFromUnsplit(m: string, p: string, frags: seq<string>)
    requires '\n' !in m
    requires WellFormed(m, frags) && Terminated(p)
    ensures SplitFrom(m, p + Unsplit(m, frags), |p|, |p|) == frags
    decreases |frags|
  {
    if |frags| == 1 {
      SkipLastFragment(m, p, frags[0]);
    } else {
      var f, d, rest := frags[0], frags[1], frags[2..];
      var u := Unsplit(m, rest);
      var p2 := p + f + m + d + "\n";
      PrefixUnsplit(m, p, frags);
      SplitPastFragment(m, p, f, d, u);
      SplitFromUnsplit(m, p2, rest);
      assert frags == [f, d] + rest;
    }
  }

  /** Every well-formed fragment list is what `Split` makes of its join, so
      `Split` and `Unsplit` are inverse between texts and well-formed
      lists. */
  lemma UnsplitSplit(frags: seq<string>)
    requires WellFormed(FromPrefix, frags)
    ensures Split(Unsplit(FromPrefix, frags)) == frags
  {
    SplitFromUnsplit(FromPrefix, [], frags);
    assert [] + Unsplit(FromPrefix, frags) == Unsplit(FromPrefix, frags);
  }

  /** The indices from `i` on where a boundary starts, in increasing order,
      found the way `SplitFrom` scans: it resumes after each marker line. */
  function BoundariesFrom(m: string, s: string, i: nat): (r: seq<nat>)
    requires i <= |s|
    ensures forall j :: 0 <= j < |r| ==> i <= r[j] < |s| && BoundaryAt(m, s, r[j])
    decreases |s| - i
  {
    if i == |s| then []
    else if BoundaryAt(m, s, i) then [i] + BoundariesFrom(m, s, DateEnd(m, s, i) + 1)
    else BoundariesFrom(m, s, i + 1)
  }

  predicate Increasing(r: seq<nat>) {
    forall j, k :: 0 <= j < k < |r| ==> r[j] < r[k]
  }

  /** No line starts strictly inside a marker line, so no boundary does. */
  lemma NoBoundaryInsideLine(m: string, s: string, i: nat, k: nat)
    requires '\n' !in m && BoundaryAt(m, s, i)
    requires i < k <= DateEnd(m, s, i)
    ensures !BoundaryAt(m, s, k)
  {
    var e := DateEnd(m, s, i);
    DateEndFacts(m, s, i);
    if k - 1 < i + |m| {
      assert s[k - 1] == s[i..i + |m|][k - 1 - i];
    } else {
      assert s[k - 1] == s[i + |m|..e][k - 1 - i - |m|];
    }
  }

  /** No boundary starts at the very end of the text. */
  lemma NoBoundaryAtEnd(m: string, s: string)
    ensures !BoundaryAt(m, s, |s|)
  {
  }

  /** The scan misses no boundary and reports each once, in order. */
  lemma {:induction false} BoundariesFromExact(m: string, s: string, i: nat)
    requires '\n' !in m && i <= |s|
    ensures Increasing(BoundariesFrom(m, s, i))
    ensures forall k: nat :: k in BoundariesFrom(m, s, i) <==> i <= k && BoundaryAt(m, s, k)
    decreases |s| - i, 1
  {
    if i == |s| {
      NoBoundaryAtEnd(m, s);
    } else if BoundaryAt(m, s, i) {
      ExactAtBoundary(m, s, i);
    } else {
      ExactPastNonBoundary(m, s, i);
    }
  }

  lemma {:induction false} ExactAtBoundary(m: string, s: string, i: nat)
    requires '\n' !in m && i < |s| && BoundaryAt(m, s, i)
    ensures Increasing(BoundariesFrom(m, s, i))
    ensures forall k: nat :: k in BoundariesFrom(m, s, i) <==> i <= k && BoundaryAt(m, s, k)
    decreases |s| - i, 0
  {
    var e := DateEnd(m, s, i);
    BoundariesFromExact(m, s, e + 1);
    var t := BoundariesFrom(m, s, e + 1);
    assert BoundariesFrom(m, s, i) == [i] + t;
    IncreasingCons(i, t);
    MembersAtBoundary(m, s, i, e, t);
  }

  lemma MembersAtBoundary(m: string, s: string, i: nat, e: nat, t: seq<nat>)
    requires '\n' !in m && i < |s| && BoundaryAt(m, s, i) && e == DateEnd(m, s, i)
    requires forall k: nat :: k in t <==> e + 1 <= k && BoundaryAt(m, s, k)
    ensures forall k: nat :: k in [i] + t <==> i <= k && BoundaryAt(m, s, k)
  {
    NoBoundaryInLine(m, s, i);
    forall k: nat
      ensures k in [i] + t <==> i <= k && BoundaryAt(m, s, k)
    {
      assert k in [i] + t <==> k == i || k in t;
    }
  }

  lemma {:induction false} ExactPastNonBoundary(m: string, s: string, i: nat)
    requires '\n' !in m && i < |s| && !BoundaryAt(m, s, i)
    ensures Increasing(BoundariesFrom(m, s, i))
    ensures forall k: nat :: k in BoundariesFrom(m, s, i) <==> i <= k && BoundaryAt(m, s, k)
    decreases |s| - i, 0
  {
    BoundariesFromExact(m, s, i + 1);
  }

  /** No boundary starts inside the marker line of the boundary at `i`. */
  lemma NoBoundaryInLine(m: string, s: string, i: nat)
    requires '\n' !in m && BoundaryAt(m, s, i)
    ensures forall k: nat :: i < k <= DateEnd(m, s, i) ==> !BoundaryAt(m, s, k)
  {
    forall k: nat | i < k <= DateEnd(m, s, i)
      ensures !BoundaryAt(m, s, k)
    {
      NoBoundaryInsideLine(m, s, i, k);
    }
  }

  lemma IncreasingCons(x: nat, t: seq<nat>)
    requires Increasing(t) && forall j :: 0 <= j < |t| ==> x < t[j]
    ensures Increasing([x] + t)
  {
  }

  /** Fragment `2j + 1` of `frags` is the date of the boundary at
      `starts[j]`: the rest of its line after the marker. */
  ghost predicate DatesAt(m: string, s: string, frags: seq<string>, starts: seq<nat>) {
    && |frags| == 2 * |starts| + 1
    && forall j :: 0 <= j < |starts| ==> IsDateOf(m, s, starts[j], frags[2 * j + 1])
  }

  /** `d` is the date of the boundary at `k`. */
  ghost predicate IsDateOf(m: string, s: string, k: nat, d: string) {
    BoundaryAt(m, s, k) && d == s[k + |m|..DateEnd(m, s, k)]
  }

  lemma DatesAtCons(m: string, s: string, i: nat, f: string, d: string, frags: seq<string>,
                    starts: seq<nat>)
    requires IsDateOf(m, s, i, d) && DatesAt(m, s, frags, starts)
    ensures DatesAt(m, s, [f, d] + frags, [i] + starts)
  {
    var r := [f, d] + frags;
    var b := [i] + starts;
    forall j | 0 <= j < |b|
      ensures IsDateOf(m, s, b[j], r[2 * j + 1])
    {
      if j > 0 {
        assert r[2 * j + 1] == frags[2 * (j - 1) + 1];
        assert b[j] == starts[j - 1];
      }
    }
  }

  /** Fragment `2j + 1` of the split is the date of the `j`-th boundary. */
  lemma {:induction false} SplitFromDates(m: string, s: string, start: nat, i: nat)
    requires start <= i <= |s|
    ensures DatesAt(m, s, SplitFrom(m, s, start, i), BoundariesFrom(m, s, i))
    decreases |s| - i, 1
  {
    if i == |s| {
      DatesAtEnd(m, s, start);
    } else if BoundaryAt(m, s, i) {
      DatesAtBoundary(m, s, start, i);
    } else {
      DatesPastNonBoundary(m, s, start, i);
    }
  }

  lemma DatesAtEnd(m: string, s: string, start: nat)
    requires start <= |s|
    ensures DatesAt(m, s, SplitFrom(m, s, start, |s|), BoundariesFrom(m, s, |s|))
  {
    assert BoundariesFrom(m, s, |s|) == [];
    assert SplitFrom(m, s, start, |s|) == [s[start..]];
  }

  lemma {:induction false} DatesAtBoundary(m: string, s: string, start: nat, i: nat)
    requires start <= i < |s| && BoundaryAt(m, s, i)
    ensures DatesAt(m, s, SplitFrom(m, s, start, i), BoundariesFrom(m, s, i))
    decreases |s| - i, 0
  {
    var e := DateEnd(m, s, i);
    var d := s[i + |m|..e];
    SplitFromDates(m, s, e + 1, e + 1);
    SplitFromAtBoundary(m, s, start, i);
    BoundariesFromAtBoundary(m, s, i);
    DatesAtCons(m, s, i, s[start..i], d, SplitFrom(m, s, e + 1, e + 1),
                BoundariesFrom(m, s, e + 1));
  }

  lemma {:induction false} DatesPastNonBoundary(m: string, s: string, start: nat, i: nat)
    requires start <= i < |s| && !BoundaryAt(m, s, i)
    ensures DatesAt(m, s, SplitFrom(m, s, start, i), BoundariesFrom(m, s, i))
    decreases |s| - i, 0
  {
    SplitFromDates(m, s, start, i + 1);
    assert SplitFrom(m, s, start, i) == SplitFrom(m, s, start, i + 1);
    assert BoundariesFrom(m, s, i) == BoundariesFrom(m, s, i + 1);
  }

  /** One step of `BoundariesFrom` at a boundary. */
  lemma BoundariesFromAtBoundary(m: string, s: string, i: nat)
    requires i < |s| && BoundaryAt(m, s, i)
    ensures BoundariesFrom(m, s, i) == [i] + BoundariesFrom(m, s, DateEnd(m, s, i) + 1)
  {
  }

  /** The raw date of mail `i` is the rest of the `i`-th `From - ` line
      after the marker, without its newline. */
  lemma MailDates<D>(text: string, strptime: DateParser<D>)
    ensures MailsOf(text, [], strptime).Success?
    ensures |MailsOf(text, [], strptime).value| == |Boundaries(text)|
    ensures forall i :: 0 <= i < |Boundaries(text)| ==>
      MailsOf(text, [], strptime).value[i].date == Raw(LineDate(text, Boundaries(text)[i]))
  {
    SplitFromDates(FromPrefix, text, 0, 0);
  }

  /** `Boundaries` lists every `From - ` line start of the text, each once,
      in increasing order. */
  lemma BoundariesAreMarkerLines(text: string)
    ensures Increasing(Boundaries(text))
    ensures forall k: nat :: k in Boundaries(text) <==> BoundaryAt(FromPrefix, text, k)
  {
    BoundariesFromExact(FromPrefix, text, 0);
  }

  /** The `From - ` lines of a mailbox text. */
  function Boundaries(text: string): seq<nat> {
    BoundariesFrom(FromPrefix, text, 0)
  }

  /** `iter_mails(text)` with the default regex: one record per `From - `
      line with raw dates; with a date format it succeeds exactly when the
      date of every `From - ` line parses. */
  function MailsOf<D>(text: string, format: string, strptime: DateParser<D>)
    : (r: Result<seq<Mail<D>>, MailError>)
    ensures format == [] ==> r.Success? && |r.value| == |Boundaries(text)|
    ensures format != [] ==> (r.Success? <==> forall j :: 0 <= j < |Boundaries(text)| ==>
      strptime(LineDate(text, Boundaries(text)[j]), format).Some?)
  {
    DatesParseAtBoundaries(text, format, strptime);
    IterMails(Split(text), format, strptime)
  }

  /** The date on the `From - ` line at `k`. */
  function LineDate(text: string, k: nat): string
    requires BoundaryAt(FromPrefix, text, k)
  {
    text[k + |FromPrefix|..DateEnd(FromPrefix, text, k)]
  }

  /** The date fragments after the split's first fragment are the dates of
      the `From - ` lines, so they all parse exactly when those do. */
  lemma DatesParseAtBoundaries<D>(text: string, format: string, strptime: DateParser<D>)
    ensures |Split(text)| == 2 * |Boundaries(text)| + 1
    ensures AllDatesParse(Split(text)[1..], format, strptime)
        <==> forall j :: 0 <= j < |Boundaries(text)| ==>
               strptime(LineDate(text, Boundaries(text)[j]), format).Some?
  {
    var frags, b := Split(text), Boundaries(text);
    SplitFromDates(FromPrefix, text, 0, 0);
    forall j | 0 <= j < |b|
      ensures frags[1..][2 * j] == LineDate(text, b[j])
    {
      assert IsDateOf(FromPrefix, text, b[j], frags[2 * j + 1]);
    }
  }

  /** With raw dates, `iter_mails` yields one record per `From - ` line, in
      order: record `i` holds the rest of the `i`-th such line and the text
      up to the next one, which holds no `From - ` line of its own. */
  lemma MailsOfRaw<D>(text: string, strptime: DateParser<D>)
    ensures |Split(text)| == 2 * |Boundaries(text)| + 1
    ensures MailsOf(text, [], strptime).Success?
    ensures |MailsOf(text, [], strptime).value| == |Boundaries(text)|
    ensures forall i :: 0 <= i < |Boundaries(text)| ==>
      && MailsOf(text, [], strptime).value[i] == RawMail(Split(text)[2 * i + 1], Split(text)[2 * i + 2])
      && '\n' !in MailsOf(text, [], strptime).value[i].date.text
      && Clean(FromPrefix, MailsOf(text, [], strptime).value[i].content)
  {
    var frags := Split(text);
    SplitFromDates(FromPrefix, text, 0, 0);
    SplitWellFormed(text);
    forall i | 0 <= i < |Boundaries(text)|
      ensures '\n' !in frags[2 * i + 1] && Clean(FromPrefix, frags[2 * i + 2])
    {
      WellFormedParts(FromPrefix, frags, 2 * i + 1);
    }
  }

  /** The parts of a well-formed list, by position. */
  lemma {:induction false} WellFormedParts(m: string, frags: seq<string>, k: nat)
    requires WellFormed(m, frags) && k < |frags|
    ensures k % 2 == 1 ==> '\n' !in frags[k]
    ensures k % 2 == 0 ==> Clean(m, frags[k])
    ensures k % 2 == 0 && k < |frags| - 1 ==> Terminated(frags[k])
    ensures k % 2 == 1 ==> Clean(m, frags[k + 1])
    decreases k
  {
    if k >= 2 {
      WellFormedParts(m, frags[2..], k - 2);
      assert frags[k] == frags[2..][k - 2];
      if k % 2 == 1 {
        assert frags[k + 1] == frags[2..][k - 1];
      }
    } else if k == 1 && |frags| > 3 {
      assert frags[2] == frags[2..][0];
    }
  }

  /** The conditions under which a mailbox written from a prefix and
      (date, body) pairs splits back into them: dates without newlines,
      prefix and bodies without a `From - ` line of their own, and every
      piece followed by a `From - ` line ending a line. */
  predicate Joinable(m: string, prefix: string, pairs: seq<(string, string)>) {
    && Clean(m, prefix)
    && (|pairs| > 0 ==> Terminated(prefix))
    && (forall i :: 0 <= i < |pairs| ==> '\n' !in pairs[i].0 && Clean(m, pairs[i].1))
    && (forall i :: 0 <= i < |pairs| - 1 ==> Terminated(pairs[i].1))
  }

  /** The mailbox text written from a prefix and (date, body) pairs. */
  function Mailbox(prefix: string, pairs: seq<(string, string)>): string {
    Unsplit(FromPrefix, [prefix] + Flatten(pairs))
  }

  lemma {:induction false} JoinableWellFormed(m: string, prefix: string, pairs: seq<(string, string)>)
    requires Joinable(m, prefix, pairs)
    ensures WellFormed(m, [prefix] + Flatten(pairs))
    decreases |pairs|
  {
    var frags := [prefix] + Flatten(pairs);
    if |pairs| > 0 {
      var tail := pairs[1..];
      assert Joinable(m, pairs[0].1, tail) by {
        forall i | 0 <= i < |tail| ensures '\n' !in tail[i].0 && Clean(m, tail[i].1) {
          assert tail[i] == pairs[i + 1];
        }
        forall i | 0 <= i < |tail| - 1 ensures Terminated(tail[i].1) {
          assert tail[i] == pairs[i + 1];
        }
        if |tail| > 0 {
          assert Terminated(pairs[0].1);
        }
      }
      JoinableWellFormed(m, pairs[0].1, tail);
      assert Flatten(pairs) == [pairs[0].0, pairs[0].1] + Flatten(tail);
      assert frags[2..] == [pairs[0].1] + Flatten(tail);
    }
  }

  /** The round trip the mailbox format promises: a mailbox written from a
      prefix and (date, body) pairs that meet `Joinable` yields exactly
      those pairs, in order, as raw-date records. */
  lemma MailboxRoundTrip<D>(prefix: string, pairs: seq<(string, string)>, strptime: DateParser<D>)
    requires Joinable(FromPrefix, prefix, pairs)
    ensures MailsOf(Mailbox(prefix, pairs), [], strptime).Success?
    ensures |MailsOf(Mailbox(prefix, pairs), [], strptime).value| == |pairs|
    ensures forall i :: 0 <= i < |pairs| ==>
      MailsOf(Mailbox(prefix, pairs), [], strptime).value[i] == RawMail(pairs[i].0, pairs[i].1)
  {
    JoinableWellFormed(FromPrefix, prefix, pairs);
    UnsplitSplit([prefix] + Flatten(pairs));
    IterMailsPairs(prefix, pairs, strptime);
  }
}

=== FILE: text.dfy ===
/** Small string operations: `str.split` on one separator and `str.strip()`,
    which marks.py calls, and the scans for a character's first and last
    occurrence that the regular expressions of marks.py and mail.py make. */
module Text {
  import opened Wrappers

  /** `p` occurs in `s` starting at index `i`. */
  predicate HasPrefixAt(s: string, i: nat, p: string) {
    i + |p| <= |s| && s[i..i + |p|] == p
  }

  /** The first index at or after `from` where `c` occurs. */
  function FindChar(s: string, c: char, from: nat): (r: Option<nat>)
    requires from <= |s|
    ensures r.Some? ==> from <= r.value < |s| && s[r.value] == c && c !in s[from..r.value]
    ensures r.None? ==> c !in s[from..]
    decreases |s| - from
  {
    if from == |s| then None
    else if s[from] == c then Some(from)
    else
      var r := FindChar(s, c, from + 1);
      assert r.Some? ==> s[from..r.value] == [s[from]] + s[from + 1..r.value];
      assert s[from..] == [s[from]] + s[from + 1..];
      r
  }

  /** `FindChar` reports exactly the first occurrence. */
  lemma FindCharIsFirst(s: string, c: char, from: nat, e: nat)
    requires from <= e < |s| && s[e] == c && c !in s[from..e]
    ensures FindChar(s, c, from) == Some(e)
  {
    var r := FindChar(s, c, from);
    assert s[from..][e - from] == c;
  }

  /** The last index where `c` occurs. */
  function FindLast(s: string, c: char): (r: Option<nat>)
    ensures r.Some? ==> r.value < |s| && s[r.value] == c && c !in s[r.value + 1..]
    ensures r.None? ==> c !in s
  {
    if |s| == 0 then None
    else if s[|s| - 1] == c then Some(|s| - 1)
    else
      var r := FindLast(s[..|s| - 1], c);
      assert s == s[..|s| - 1] + [s[|s| - 1]];
      assert r.Some? ==> s[r.value + 1..] == s[..|s| - 1][r.value + 1..] + [s[|s| - 1]];
      r
  }

  /** `FindLast` reports exactly the last occurrence. */
  lemma FindLastIsLast(s: string, c: char, k: nat)
    requires k < |s| && s[k] == c && c !in s[k + 1..]
    ensures FindLast(s, c) == Some(k)
  {
    var r := FindLast(s, c);
  }

  /** Python's `str.isspace()` on one character: the ASCII and Unicode
      whitespace that `str.strip()` removes. */
  predicate IsSpace(c: char) {
    var n := c as int;
    n == 0x20 || 0x09 <= n <= 0x0D || 0x1C <= n <= 0x1F || n == 0x85 || n == 0xA0
    || n == 0x1680 || 0x2000 <= n <= 0x200A || n == 0x2028 || n == 0x2029
    || n == 0x202F || n == 0x205F || n == 0x3000
  }

  predicate AllSpace(s: string) {
    forall k :: 0 <= k < |s| ==> IsSpace(s[k])
  }

  /** Nothing to strip at either end. */
  predicate Trimmed(s: string) {
    s == [] || (!IsSpace(s[0]) && !IsSpace(s[|s| - 1]))
  }

  function TrimStart(s: string): string {
    if s != [] && IsSpace(s[0]) then TrimStart(s[1..]) else s
  }

  function TrimEnd(s: string): string {
    if s != [] && IsSpace(s[|s| - 1]) then TrimEnd(s[..|s| - 1]) else s
  }

  /** `str.strip()`: drop leading and trailing whitespace. Nothing is left
      exactly when the string is all whitespace. */
  function Strip(s: string): (r: string)
    ensures |r| <= |s|
    ensures r == [] <==> AllSpace(s)
  {
    StripEmpty(s);
    TrimEnd(TrimStart(s))
  }

  /** Trimming both ends leaves nothing exactly when every character is
      whitespace. */
  lemma StripEmpty(s: string)
    ensures |TrimEnd(TrimStart(s))| <= |s|
    ensures TrimEnd(TrimStart(s)) == [] <==> AllSpace(s)
  {
    var t := TrimStart(s);
    TrimStartDropsSpace(s);
    TrimEndDropsSpace(t);
    if AllSpace(s) {
      TrimStartAll(s);
    }
    if TrimEnd(t) == [] {
      // a non-empty `t` starts with a non-space, which `TrimEnd` would keep
      assert AllSpace(t) by {
        assert t[0..] == t;
      }
      assert t == [];
      assert s[..|s|] == s;
    }
  }

  /** `TrimStart` drops exactly the leading whitespace. */
  lemma {:induction false} TrimStartDropsSpace(s: string)
    ensures |TrimStart(s)| <= |s| && TrimStart(s) == s[|s| - |TrimStart(s)|..]
    ensures AllSpace(s[..|s| - |TrimStart(s)|])
    ensures TrimStart(s) == [] || !IsSpace(TrimStart(s)[0])
    decreases |s|
  {
    if s != [] && IsSpace(s[0]) {
      TrimStartDropsSpace(s[1..]);
      var r := TrimStart(s);
      assert s[..|s| - |r|] == [s[0]] + s[1..][..|s| - 1 - |r|];
    }
  }

  /** `TrimEnd` drops exactly the trailing whitespace. */
  lemma {:induction false} TrimEndDropsSpace(s: string)
    ensures |TrimEnd(s)| <= |s| && TrimEnd(s) == s[..|TrimEnd(s)|]
    ensures AllSpace(s[|TrimEnd(s)|..])
    ensures TrimEnd(s) == [] || !IsSpace(TrimEnd(s)[|TrimEnd(s)| - 1])
    decreases |s|
  {
    if s != [] && IsSpace(s[|s| - 1]) {
      TrimEndDropsSpace(s[..|s| - 1]);
      var r := TrimEnd(s);
      assert s[|r|..] == s[..|s| - 1][|r|..] + [s[|s| - 1]];
    }
  }

  /** The result of `Strip` is a middle piece of its input with nothing
      left to strip. */
  lemma StripIsTrimmed(s: string)
    ensures Trimmed(Strip(s)) && |Strip(s)| <= |s|
    ensures exists i, j :: 0 <= i <= j <= |s| && Strip(s) == s[i..j] && AllSpace(s[..i]) && AllSpace(s[j..])
  {
    var t := TrimStart(s);
    TrimStartDropsSpace(s);
    TrimEndDropsSpace(t);
    var r := TrimEnd(t);
    assert r != [] ==> r[0] == t[0];
    var i := |s| - |t|;
    var j := i + |r|;
    assert t == s[i..];
    assert r == s[i..j];
    assert s[j..] == t[|r|..];
  }

  /** Whitespace around a trimmed core is exactly what `Strip` removes. */
  lemma StripFrame(pre: string, x: string, post: string)
    requires AllSpace(pre) && AllSpace(post) && Trimmed(x)
    ensures Strip(pre + x + post) == x
  {
    var s := pre + x + post;
    var t := TrimStart(s);
    TrimStartDropsSpace(s);
    if x == [] {
      assert AllSpace(s);
      TrimStartAll(s);
    } else {
      // TrimStart stops exactly at x[0]
      assert s[|pre|] == x[0];
      var d := |s| - |t|;
      assert AllSpace(s[..d]);
      assert d == |pre|;
      assert t == x + post;
      var r := TrimEnd(t);
      TrimEndDropsSpace(t);
      assert AllSpace(t[|r|..]);
      assert !IsSpace(t[|x| - 1]);
      assert |r| == |x|;
    }
  }

  lemma {:induction false} TrimStartAll(s: string)
    requires AllSpace(s)
    ensures TrimStart(s) == []
    decreases |s|
  {
    if s != [] {
      TrimStartAll(s[1..]);
    }
  }

  /** `parts` glued back together with `c` between neighbours (`c.join`). */
  function JoinWith(parts: seq<string>, c: char): (r: string)
    requires |parts| >= 1
  {
    if |parts| == 1 then parts[0] else parts[0] + [c] + JoinWith(parts[1..], c)
  }

  /** `s.split(c)`: the maximal pieces between occurrences of `c`. */
  function SplitOn(s: string, c: char): (r: seq<string>)
    ensures |r| >= 1
    ensures |r| == multiset(s)[c] + 1
    ensures forall k :: 0 <= k < |r| ==> c !in r[k]
    ensures JoinWith(r, c) == s
    decreases |s|
  {
    match FindChar(s, c, 0)
    case None =>
      assert s[0..] == s;
      [s]
    case Some(k) =>
      var rest := SplitOn(s[k + 1..], c);
      assert s == s[..k] + [c] + s[k + 1..];
      assert multiset(s) == multiset(s[..k]) + multiset{c} + multiset(s[k + 1..]);
      [s[..k]] + rest
  }

  /** Splitting undoes joining when no part holds the separator. */
  lemma {:induction false} SplitOnJoinWith(parts: seq<string>, c: char)
    requires |parts| >= 1
    requires forall k :: 0 <= k < |parts| ==> c !in parts[k]
    ensures SplitOn(JoinWith(parts, c), c) == parts
    decreases |parts|
  {
    var s := JoinWith(parts, c);
    if |parts| == 1 {
      assert s[0..] == s;
      assert FindChar(s, c, 0).None?;
    } else {
      var tail := JoinWith(parts[1..], c);
      assert s == parts[0] + [c] + tail;
      var f := FindChar(s, c, 0);
      assert s[|parts[0]|] == c;
      assert s[0..|parts[0]|] == parts[0];
      assert f.value == |parts[0]|;
      assert s[|parts[0]| + 1..] == tail;
      SplitOnJoinWith(parts[1..], c);
      assert parts == [parts[0]] + parts[1..];
    }
  }
}

=== FILE: wrappers.dfy ===
/** Failure-compatible result types shared by every module of the model. */
module Wrappers {

  /** An optional value: the model's stand-in for Python's `None`. */
  datatype Option<+T> = None | Some(value: T)

  /** Either a value or the exception the Python code would raise. */
  datatype Result<+R, +E> = Success(value: R) | Failure(error: E) {

    predicate IsFailure() {
      Failure?
    }

    function PropagateFailure<U>(): Result<U, E>
      requires Failure?
    {
      Failure(error)
    }

    function Extract(): R
      requires Success?
    {
      value
    }
  }
}
